=== FILE: README.md ===
# Marketplace backend core in Dafny

This project models the order, cart, inventory and address logic of a small
second-hand marketplace backend. The backend is written in JavaScript on
Express and PostgreSQL. The relational tables become one immutable `Store`,
which holds a map per table (products, order lines, orders, cart rows,
addresses) and one serial counter `next` that hands out fresh ids. Each model
method becomes a pure transition that returns a `Result` (a new store or an
error), and each read becomes a pure function of the store.

Modules, one per concern of the repository:

- `Results` (results.dfy): `Option`, `Result` and the error kinds. NotFound,
  BadRequest and Unauthorized are the repository's own error classes.
  ServerError stands for an uncaught `TypeError`, raised when a field of a
  missing row is read.
- `Tables` (tables.dfy): sorted keys, minimum, index lookup and
  de-duplication, the list helpers the queries need.
- `Schema` (schema.dfy): the records and the store.
- `Like` (like.dfy): PostgreSQL `ILIKE` matching.
- `Products` (products.dfy): the `Product` model, covering derived status,
  `hasQuantity`, `hasEverBeenSold`, create, partial update, hard delete and
  `findAll`.
- `Cart` (cart.dfy): the `Cart` model.
- `Addresses` (address.dfy): the `Address` model and its default-address
  demotion.
- `Orders` (orders.dfy): `Order.create`, the checkout commit. It writes the
  order, then for each item writes the line, debits the product and removes
  the cart row, with hand-rolled compensation when a write reports no row.
  There is no transaction. A thrown error leaves the earlier writes in place,
  so the result is a `Commit`: the store as it stands, plus what the call
  reported.
- `OrderQueries` (order_queries.dfy): `getAllProductsFromOrder`, the
  buyer's view and the seller's view.
- `Checkout` (checkout.dfy): the `/checkout` route. It checks every item in
  order (owner, stock, active flag) before `Order.create` runs.
- `ImageType` (image_type.dfy): the upload MIME filter.

What the code does not do, and the model therefore does not do either:

- `createItem` never merges a second row for the same product into an
  existing one.
- A user's first address is not made the default.
- Deleting the default address is not refused.
- Updating a cart row performs no stock check.

Where the code and its own comments differ, the model follows the code:
`findAll`'s doc comment promises partial name matches, but its name filter
matches suffixes (see Findings).

## Model

| member | source | states |
|---|---|---|
| Products.Create | models/products.js:15-34 | The new product carries exactly the given owner, name, price, quantity and description, and is active. Its status is "out of stock" exactly when the quantity is zero. It gets a fresh id, and no other product or table changes. |
| Products.Get | models/products.js:43-65 | Found exactly when the id is stored, returning the stored row; otherwise NotFound. |
| Products.Update | models/products.js:125-155 | An absent id is NotFound, the only error. Fields absent from the patch keep their values. The status is recomputed from the quantity exactly when the patch holds a quantity of at least zero; otherwise it is the patch's status or the old one. Other products and tables are unchanged. |
| Products.StatusFor | models/products.js:227-236 | The status is "out of stock" exactly when the quantity is zero, and "available" for every other quantity, negative ones included. |
| Products.HasEverBeenSold | models/products.js:186-197 | True exactly when some order line references the product. |
| Products.Remove | models/products.js:164-197 | BadRequest(CannotDelete) exactly when some order line references the product, checked before existence. NotFound exactly when no line references it and it is absent. It succeeds exactly when the product exists and was never sold, and then only that product is removed. |
| Products.HasQuantity | models/products.js:203-210 | Answers whether the stored quantity covers the request. Reading a missing product raises instead of answering false. |
| Products.FindAll | models/products.js:76-110 | Lists each stored product that passes every given filter (conjunction), exactly once and in increasing id order, and no other product. |
| Products.NameFilterIsSuffix | models/products.js:96-99 | With a wildcard-free name, the `'%' + name` filter keeps exactly the products whose name ends with it, ignoring case. |
| Products.NameFilterIsPartial | models/products.js:67-72 | With the corrected `'%' + name + '%'` pattern, the filter keeps exactly the products whose name contains it, ignoring case, as the method's documentation promises. |
| Products.SuffixMissesPartialName | models/products.js:96-99 | Concretely: with the filter as written, "Bike" does not find "Bikes"; the corrected pattern finds it. |
| Like.SuffixPattern | models/products.js:97-98 | `s ILIKE '%' + name` with a wildcard-free name holds exactly when `s` ends with `name`, ignoring case. |
| Like.InfixPattern | models/products.js:67-72 | `s ILIKE '%' + name + '%'` with a wildcard-free name holds exactly when `s` contains `name`, ignoring case. |
| Cart.CreateItem | models/cart.js:15-32 | Refused exactly when the product is missing (ServerError) or short of stock (BadRequest(QuantityNotAvailable)). On success it adds exactly one new row with the given owner, product, quantity and date. Existing rows are never merged or changed, and the cart grows by exactly one row. |
| Cart.Get | models/cart.js:66-80 | Found exactly when the id is stored, returning the stored row; otherwise NotFound. |
| Cart.Update | models/cart.js:93-109 | An absent id is NotFound. Otherwise only that row's quantity changes, with no stock check, and other rows and tables are unchanged. |
| Cart.Remove | models/cart.js:116-127 | An absent id is NotFound. Otherwise exactly that row is removed. |
| Cart.RemoveTwiceFails | models/cart.js:116-127 | Removing the same row a second time is NotFound, so remove is not idempotent. |
| Cart.SortByDate | models/cart.js:40-54 | The result is a permutation of its input, ordered by date. |
| Cart.GetAllItems | models/cart.js:40-54 | Each of the owner's rows appears exactly once, and no other row appears. The rows are ordered by date. |
| Addresses.ChangeDefault | models/address.js:95-108 | Afterwards no address of the owner other than the target is default. The target and other owners' addresses are untouched, only `isDefault` flags change, and no address is added or removed. Demoting around one of the owner's own addresses keeps "at most one default per user". |
| Addresses.Create | models/address.js:14-34 | Inserts the address as given under a fresh id. When it is default, the owner's other addresses are no longer default. Every other address keeps its street, city, state and zipcode, and one that was not default is untouched. Nothing else changes. It keeps "at most one default per user". |
| Addresses.Update | models/address.js:124-151 | An absent id is NotFound. With `isDefault: true` it is a ServerError instead, because the demotion reads a field of the missing row first. The row becomes the merge of the patch. With `isDefault: true` the owner's other defaults are demoted. Every other address keeps its street, city, state and zipcode, and one that was not default, or belongs to another owner, is untouched. A successful update keeps "at most one default per user". |
| Addresses.Remove | models/address.js:158-169 | An absent id is NotFound. Otherwise exactly that address is removed, which keeps "at most one default per user". |
| Addresses.FindAll | models/address.js:70-86 | Lists exactly the owner's addresses, each once, with every default address before every non-default one. |
| Orders.Create | models/orders.js:17-88 | An order insert that gives back no row makes reading its id raise a TypeError (ServerError), and nothing is written. An order that takes id 0, which is falsy, reports "unable" and leaves the order row it wrote, with nothing else changed. A reported success names the order by the id the insert took. Any other thrown error is NotFound, from a missing product or cart row. |
| Orders.ComputeTotals | models/orders.js:17-32 | The first loop computes the sum of price times quantity over the snapshot. It records the last item's owner as the buyer. |
| Orders.DeleteOrder | models/orders.js:77-82 | The compensation removes the order row and every line of that order, and keeps every other line. |
| Orders.CreateSucceeds | models/orders.js:17-88 | A reported success inserted the order, with subtotal and total both equal to the sum of price times quantity. It added one line per item and removed every named cart row. It debited each product by exactly what the snapshot requested of it, keeping its listing fields. Every item's product and cart row existed, and nothing else changed. |
| Orders.AddedLines | models/orders.js:53-65 | Item `j`'s line lands at the `j`-th new id, belongs to the order, and has total equal to that item's price times quantity. |
| Orders.StepStops | models/orders.js:53-85 | An item whose handling stops never reports success. A failed line insert deletes only the order row. A failed quantity update deletes the order and its lines. A thrown error is NotFound and deletes nothing. It comes after the item's line is written. Either the product is missing, and nothing else changed; or the product was debited as on success, and the cart row is the one missing. |
| Orders.CreateUnable | models/orders.js:35-82 | A reported failure never comes from an insert with no row. After order id 0, the order row stays and nothing else changes. After a failed line insert or quantity update, no order row is left. The debits and cart removals of the items before the failing one are not undone. The lines written before a failed line insert stay behind. After a failed quantity update, the line table is back to what it was. |
| Orders.CreateRaised | models/orders.js:35-84 | A thrown error comes from an order insert with no row (ServerError, nothing written) or from the loop at some item `m` (NotFound); order id 0 never raises. Nothing is undone after a NotFound. The order row stays. The lines of the items up to `m` stay. The cart lost exactly the rows of the items before `m`. Each product was debited by the items before `m`, and also by item `m` when its product exists; its cart row is then the missing one. |
| Orders.RunSnoc | models/orders.js:53-85 | Handling items up to `m + 1` is handling items up to `m`, then item `m`. |
| Orders.StopRaised | models/orders.js:53-84 | The store a NotFound at item `m` leaves: the order row, the lines up to `m`, the cart without the rows before `m`, and the products debited through the last item whose product exists. |
| Orders.CreateTracks | models/orders.js:73-75 | After a successful commit, every product's status still follows its quantity wherever that quantity is not negative. |
| Orders.CreateCompletes | models/orders.js:53-87 | When every write gives back its row, a snapshot whose products and distinct cart rows all exist commits successfully, unless the order takes id 0, which reports "unable". |
| OrderQueries.ProductsFromOrder | models/orders.js:188-215 | Returns exactly the rows surviving the joins: lines of the order whose product exists, each paired with a default address of its seller. No (line, address) pair appears twice. It is NotFound exactly when no row survives. |
| OrderQueries.BuyerOrders | models/orders.js:117-120 | The loop succeeds exactly when every fetch succeeds, and fails with the error of a failed fetch. On success, entry `i` is order `i` with its fetched products. |
| OrderQueries.OrdersForBuyer | models/orders.js:97-123 | A user with no orders gets an empty list, and only then. A failure is NotFound, for one of the user's orders with no surviving rows. Otherwise it lists each of the user's orders exactly once, by id, with its products. |
| OrderQueries.BuyerSeesJoinedRows | models/orders.js:117-120 | Each order in the buyer's view carries exactly the rows that survive the joins for it, at least one, and no (line, address) pair twice. |
| OrderQueries.SellerOrderList | models/orders.js:134-149 | The ids are distinct and are exactly the orders with a line of the user's products. The list is empty exactly when the user sold nothing. |
| OrderQueries.SellerOrders | models/orders.js:152-176 | The loop succeeds exactly when every fetch succeeds and every order row exists. A failed fetch wins over the missing order (ServerError). On success, each entry is the order with the user's own rows. |
| OrderQueries.OwnRows | models/orders.js:174 | Keeps exactly the rows whose seller is the user, and keeps rows with no repeated (line, address) pair free of repeats. |
| OrderQueries.OrdersForSeller | models/orders.js:132-179 | A user who sold nothing gets an empty list, and only then. Otherwise it lists each order holding a line of the user's products exactly once, each with the user's own rows. A failure names one of the user's orders: either fetching its products fails with that same error, or the products came back but the order row is gone, and the error is ServerError. |
| OrderQueries.SellerSeesOwnRows | models/orders.js:173-174 | Each order in the seller's view carries exactly the joined rows of the user's own products, with no (line, address) pair twice. |
| OrderQueries.SellerSeesEachOrderOnce | models/orders.js:145-149 | When the seller has two lines in one order and the seller's view succeeds, that order is listed at exactly one position. |
| Checkout.ItemError | routes/orders.js:32-46 | An item passes exactly when it is the caller's, its product exists with enough stock, and it is active. Otherwise the failures are checked in order: Unauthorized for another user's item, then ServerError for a missing product, then BadRequest(NoRequestedQuantity) for a stock shortage, then BadRequest(NoLongerAvailable) for an inactive product. A shortage wins over inactivity. |
| Checkout.Validate | routes/orders.js:32-47 | There is no error exactly when every item passes. Otherwise the error is that of a failing item before which every item passes. |
| Checkout.ValidateReportsFirst | routes/orders.js:32-47 | The first failing item alone determines the reported error. |
| Checkout.Checkout | routes/orders.js:26-54 | When every item passes, the result is exactly `Order.create`'s. When some item fails, nothing is written and the first failing item's error is reported. A reported success implies that every item passed. |
| Checkout.CheckoutKeepsStockWithoutRepeats | routes/orders.js:38-43 | With the route's per-item check, when no two items name the same product, a successful checkout keeps every quantity non-negative with its matching status. |
| Checkout.OverdrawnByRepeats | routes/orders.js:38-43 | Concretely: two cart rows of 3 lamps, with 3 in stock, both pass the route's check, and the checkout succeeds, leaving -3 lamps. |
| Checkout.SafeCheckoutKeepsStock | routes/orders.js:38-43 | With the stock checked against each product's total demand, every successful checkout keeps every quantity non-negative with its matching status. |
| ImageType.Test | helpers/checkImageFileType.js:4-5 | The position-by-position regex scan answers true exactly when "jpeg", "jpg", "png" or "gif" occurs somewhere in the MIME type. |
| ImageType.CheckImageFileType | helpers/checkImageFileType.js:3-12 | For an image type the callback gets (null, true). Otherwise it gets a BadRequest and never `true`. |
| ImageType.NoTokenLetter | helpers/checkImageFileType.js:4 | A type with no `j`, `p` or `g` is never accepted. |
| ImageType.UpperCaseRefused | helpers/checkImageFileType.js:4 | The match is case-sensitive, so "IMAGE/PNG" is refused. |
| ImageType.TokenAnywhereAccepted | helpers/checkImageFileType.js:4-5 | The match is unanchored, so a token anywhere is enough ("application/x-png-archive", "notagif"). |

## Left out

- The SQL text and the database driver: tables are finite maps and each statement is a map update. `sqlForPartialUpdate` is modelled as a field-by-field merge of an optional-field patch.
- Ids: one serial counter stands in for each table's own sequence.
- Driver faults: what the writes of `Order.create` give back is a `Faults` parameter. The order insert may give back its row or no row. By item, a line insert may give back no row (the test at models/orders.js:68), and a quantity update may give back a falsy value (the test at :78). A successful `INSERT ... RETURNING` always gives back the row and a failed one throws. The model's order id is the counter `next`, so id 0 takes the falsy-id branch; the database's serial ids start at 1. `Product.update` throws NotFound itself and otherwise returns the row (models/products.js:150-152). So the falsy-id, empty-line-insert and falsy-update branches are not reached in a run; the model keeps them as the code has them.
- The transaction id (`uuidv4`) and the insertion date are parameters.
- Un-awaited promises: `changeDefaultAddress` and the updates inside it are modelled as completing before the caller returns. Interleavings with other requests are not modelled.
- Races between the route's stock check and the debit in `Order.create` are not modelled.
- `Number()` coercion and floating-point prices: prices and quantities are integers. The route's `String(item.userId)` comparison is an equality of user ids.
- The `users` join only adds names and e-mails; every user is taken to exist. Display columns are not modelled.
- routes/orders.js:40 calls `Product.isProductActive`, which models/products.js does not define, so as the files stand that call raises a TypeError for the first item that passes the owner check, and no checkout with items gets through. The model assumes a defined active check that reads the product's boolean `active` field. `Product.softRemove`, called from routes/products.js:132, is not defined either and is not modelled.
- `/checkout` (routes/orders.js:26) has no `ensureLoggedIn` middleware, although its comment says a logged-in user is required. The model assumes a logged-in user.
- Photo CRUD, `getAllProductStatus` and `getProductStatusByName`: the latter is replaced by the two status values themselves.
- The `ILIKE` escape character and Unicode case folding: only ASCII letters fold.
- Foreign keys and cascades: a delete never touches other tables. `Product.remove` refuses a sold product before the database could.
- Request-body validation (jsonschema), authentication and the other routes.
- Order among equal sort keys, and unordered queries: `getOrdersForBuyer` is listed by order id, `findAll` of addresses breaks ties by id, and the seller query's rows are taken in line-id order. Cart rows with equal dates come in insertion-sort order.
- OrderQueries.SellerOrderList: does not state that the distinct order ids keep the order of their first occurrence, only that they are distinct and complete.
- Orders.CreateSucceeds: the contents of the new lines are stated separately by Orders.AddedLines rather than in this lemma.
- The per-order loops of both views take every order's `getAllProductsFromOrder` result up front. The loops only read, so this gives them the same answers.

## Findings

| source | as written | input that shows it | evidently intended | confidence | as-written member | corrected member |
|---|---|---|---|---|---|---|
| routes/orders.js:38-43 | Each cart item is checked against the whole stock on its own. | Two cart rows of the same lamp, 3 units each, with 3 lamps in stock: both pass and the checkout leaves -3 lamps. | Check each product's stock against everything the cart asks of it. | not executed | Checkout.OverdrawnByRepeats | Checkout.SafeCheckoutKeepsStock |
| models/products.js:96-99 | The name filter is the pattern `'%' + name`, a suffix match. | A product named "Bikes" is not found by the filter "Bike". | A partial match, `'%' + name + '%'`, as the method's documentation says. | not executed | Products.SuffixMissesPartialName | Products.NameFilterIsPartial |

=== FILE: address.dfy ===
/** The address registry: the `Address` model of models/address.js. */
module Addresses {
  import opened Results
  import opened Schema
  import Tables

  /** For each owner at most one address is the default. */
  predicate AtMostOneDefault(st: Store) {
    forall a, b :: a in st.addresses && b in st.addresses && a != b
      && st.addresses[a].owner == st.addresses[b].owner && st.addresses[a].isDefault
      ==> !st.addresses[b].isDefault
  }

  /** The fields a partial update may carry; None means "not in the patch". */
  datatype Patch = Patch(
    street: Option<string>,
    city: Option<string>,
    state: Option<string>,
    zipcode: Option<string>,
    isDefault: Option<bool>)

  /** The patch `{ isDefault: false }` that demotes an address. */
  const Demote := Patch(None, None, None, None, Some(false))

  function Merge(a: Address, patch: Patch): Address {
    a.(street := patch.street.GetOr(a.street),
       city := patch.city.GetOr(a.city),
       state := patch.state.GetOr(a.state),
       zipcode := patch.zipcode.GetOr(a.zipcode),
       isDefault := patch.isDefault.GetOr(a.isDefault))
  }

  /** The `UPDATE address ... WHERE id = ...` statement alone: no row is
      touched when the id is absent. */
  function Write(st: Store, id: nat, patch: Patch): Store {
    if id in st.addresses then st.(addresses := st.addresses[id := Merge(st.addresses[id], patch)])
    else st
  }

  /** One `update(id, { isDefault: false })` per listed id, in order. */
  function DemoteAll(st: Store, ids: seq<nat>): (r: Store)
    ensures r.(addresses := st.addresses) == st
    ensures r.addresses.Keys == st.addresses.Keys
    ensures forall a :: a in st.addresses ==>
      r.addresses[a] == if a in ids then st.addresses[a].(isDefault := false) else st.addresses[a]
    decreases |ids|
  {
    if ids == [] then st
    else
      var r := DemoteAll(Write(st, ids[0], Demote), ids[1..]);
      assert forall a :: a in ids <==> a == ids[0] || a in ids[1..];
      r
  }

  /** The ids `changeDefaultAddress` selects: the other default addresses
      of the owner. */
  function OtherDefaults(st: Store, target: nat, owner: nat): set<nat> {
    set a | a in st.addresses && a != target && st.addresses[a].isDefault && st.addresses[a].owner == owner
  }

  /** `changeDefaultAddress`: every other default address of the owner is
      demoted; nothing else changes. */
  function ChangeDefault(st: Store, target: nat, owner: nat): (r: Store)
    ensures r.(addresses := st.addresses) == st
    ensures r.addresses.Keys == st.addresses.Keys
    ensures forall a :: a in r.addresses && a != target && r.addresses[a].owner == owner ==> !r.addresses[a].isDefault
    ensures forall a :: a in st.addresses && (a == target || st.addresses[a].owner != owner) ==>
      r.addresses[a] == st.addresses[a]
    ensures forall a :: a in st.addresses ==> r.addresses[a] == st.addresses[a].(isDefault := r.addresses[a].isDefault)
    ensures forall a :: a in st.addresses && !st.addresses[a].isDefault ==> r.addresses[a] == st.addresses[a]
    ensures AtMostOneDefault(st) && (target in st.addresses ==> st.addresses[target].owner == owner) ==> AtMostOneDefault(r)
  {
    DemoteAll(st, Tables.SortedKeys(OtherDefaults(st, target, owner)))
  }

  /** `create`: inserts the address; when it is default, the owner's other
      defaults are demoted. */
  function Create(st: Store, owner: nat, street: string, city: string, state: string, zipcode: string, isDefault: bool): (r: Inserted)
    ensures r.id in r.store.addresses
    ensures r.store.addresses[r.id] == Address(owner, street, city, state, zipcode, isDefault)
    ensures r.store.addresses.Keys == st.addresses.Keys + {r.id}
    ensures r.store.(addresses := st.addresses, next := st.next) == st
    ensures isDefault ==> forall a :: a in r.store.addresses && a != r.id && r.store.addresses[a].owner == owner ==>
      !r.store.addresses[a].isDefault
    ensures forall a :: a in st.addresses && a != r.id && (!isDefault || st.addresses[a].owner != owner) ==>
      r.store.addresses[a] == st.addresses[a]
    ensures forall a :: a in st.addresses && a != r.id ==>
      r.store.addresses[a] == st.addresses[a].(isDefault := r.store.addresses[a].isDefault)
      && (!st.addresses[a].isDefault ==> r.store.addresses[a] == st.addresses[a])
    ensures Fresh(st) ==> r.id !in st.addresses && Fresh(r.store)
    ensures AtMostOneDefault(st) ==> AtMostOneDefault(r.store)
  {
    var id := st.next;
    var st1 := st.(addresses := st.addresses[id := Address(owner, street, city, state, zipcode, isDefault)], next := st.next + 1);
    if isDefault then Inserted(ChangeDefault(st1, id, owner), id) else Inserted(st1, id)
  }

  /** `update`: a partial update; when the patch sets `isDefault` to true
      the owner's other defaults are demoted. On an absent id that demotion
      reads a field of the missing row first and fails with a TypeError;
      otherwise an absent id is NotFound. */
  function Update(st: Store, id: nat, patch: Patch): (r: Result<Store>)
    ensures r.Err? <==> id !in st.addresses
    ensures r.Err? ==> r.error == (if patch.isDefault == Some(true) then ServerError else NotFound)
    ensures r.Ok? ==> r.value.(addresses := st.addresses) == st && r.value.addresses.Keys == st.addresses.Keys
    ensures r.Ok? ==> r.value.addresses[id] == Merge(st.addresses[id], patch)
    ensures r.Ok? && patch.isDefault == Some(true) ==>
      forall a :: a in r.value.addresses && a != id && r.value.addresses[a].owner == st.addresses[id].owner ==>
        !r.value.addresses[a].isDefault
    ensures r.Ok? ==> forall a ::
      (a in st.addresses && a != id && (patch.isDefault != Some(true) || st.addresses[a].owner != st.addresses[id].owner)) ==>
      r.value.addresses[a] == st.addresses[a]
    ensures r.Ok? ==> forall a :: a in st.addresses && a != id ==>
      r.value.addresses[a] == st.addresses[a].(isDefault := r.value.addresses[a].isDefault)
      && (!st.addresses[a].isDefault ==> r.value.addresses[a] == st.addresses[a])
    ensures r.Ok? && AtMostOneDefault(st) ==> AtMostOneDefault(r.value)
  {
    if id !in st.addresses then
      if patch.isDefault == Some(true) then Err(ServerError) else Err(NotFound)
    else
      var st1 := Write(st, id, patch);
      if patch.isDefault == Some(true) then Ok(ChangeDefault(st1, id, st1.addresses[id].owner))
      else Ok(st1)
  }

  /** `remove`: deletes the row; an absent id is NotFound. */
  function Remove(st: Store, id: nat): (r: Result<Store>)
    ensures r.Err? <==> id !in st.addresses
    ensures r.Err? ==> r.error == NotFound
    ensures r.Ok? ==> r.value == st.(addresses := st.addresses - {id})
    ensures r.Ok? && AtMostOneDefault(st) ==> AtMostOneDefault(r.value)
  {
    if id !in st.addresses then Err(NotFound) else Ok(st.(addresses := st.addresses - {id}))
  }

  datatype Row = Row(id: nat, address: Address)

  /** The rows of the given addresses, ordered by id. */
  function RowsFor(st: Store, ids: set<nat>): (r: seq<Row>)
    requires ids <= st.addresses.Keys
    ensures forall i, j :: 0 <= i < j < |r| ==> r[i].id < r[j].id
    ensures forall i :: 0 <= i < |r| ==> r[i].id in ids && r[i].address == st.addresses[r[i].id]
    ensures forall a :: a in ids ==> exists i :: 0 <= i < |r| && r[i].id == a
  {
    var sorted := Tables.SortedKeys(ids);
    var r := seq(|sorted|, i requires 0 <= i < |sorted| => Row(sorted[i], st.addresses[sorted[i]]));
    assert forall i :: 0 <= i < |r| ==> r[i].id == sorted[i];
    forall a | a in ids ensures exists i :: 0 <= i < |r| && r[i].id == a {
      var k :| 0 <= k < |sorted| && sorted[k] == a;
      assert r[k].id == a;
    }
    r
  }

  /** Rows of the owner's addresses with the given default flag, by id. */
  function RowsWith(st: Store, owner: nat, isDefault: bool): (r: seq<Row>)
    ensures forall i, j :: 0 <= i < j < |r| ==> r[i].id < r[j].id
    ensures forall i :: 0 <= i < |r| ==>
      (r[i].id in st.addresses && r[i].address == st.addresses[r[i].id]
       && r[i].address.owner == owner && r[i].address.isDefault == isDefault)
    ensures forall a :: a in st.addresses && st.addresses[a].owner == owner && st.addresses[a].isDefault == isDefault ==>
      exists i :: 0 <= i < |r| && r[i].id == a
  {
    var ids := set a | a in st.addresses && st.addresses[a].owner == owner && st.addresses[a].isDefault == isDefault;
    var r := RowsFor(st, ids);
    assert forall a :: a in st.addresses && st.addresses[a].owner == owner && st.addresses[a].isDefault == isDefault ==> a in ids;
    r
  }

  /** `findAll`: the owner's addresses, default ones first (`ORDER BY
      is_default DESC`). The order among equal keys is left to the database;
      this model lists them by id. */
  function FindAll(st: Store, owner: nat): (r: seq<Row>)
    ensures forall i :: 0 <= i < |r| ==> r[i].id in st.addresses && r[i].address == st.addresses[r[i].id] && r[i].address.owner == owner
    ensures forall a :: a in st.addresses && st.addresses[a].owner == owner ==> exists i :: 0 <= i < |r| && r[i].id == a
    ensures forall i, j :: 0 <= i < j < |r| ==> r[i].id != r[j].id
    ensures forall i, j :: 0 <= i < j < |r| && r[j].address.isDefault ==> r[i].address.isDefault
  {
    var defaults := RowsWith(st, owner, true);
    var others := RowsWith(st, owner, false);
    DefaultsFirst(st, owner, defaults, others);
    defaults + others
  }

  lemma DefaultsFirst(st: Store, owner: nat, defaults: seq<Row>, others: seq<Row>)
    requires forall i, j :: 0 <= i < j < |defaults| ==> defaults[i].id < defaults[j].id
    requires forall i, j :: 0 <= i < j < |others| ==> others[i].id < others[j].id
    requires forall i :: 0 <= i < |defaults| ==>
      (defaults[i].id in st.addresses && defaults[i].address == st.addresses[defaults[i].id]
       && defaults[i].address.owner == owner && defaults[i].address.isDefault)
    requires forall i :: 0 <= i < |others| ==>
      (others[i].id in st.addresses && others[i].address == st.addresses[others[i].id]
       && others[i].address.owner == owner && !others[i].address.isDefault)
    requires forall a :: a in st.addresses && st.addresses[a].owner == owner && st.addresses[a].isDefault ==>
      exists i :: 0 <= i < |defaults| && defaults[i].id == a
    requires forall a :: a in st.addresses && st.addresses[a].owner == owner && !st.addresses[a].isDefault ==>
      exists i :: 0 <= i < |others| && others[i].id == a
    ensures var r := defaults + others;
      && (forall i :: 0 <= i < |r| ==> r[i].id in st.addresses && r[i].address == st.addresses[r[i].id] && r[i].address.owner == owner)
      && (forall a :: a in st.addresses && st.addresses[a].owner == owner ==> exists i :: 0 <= i < |r| && r[i].id == a)
      && (forall i, j :: 0 <= i < j < |r| ==> r[i].id != r[j].id)
      && (forall i, j :: 0 <= i < j < |r| && r[j].address.isDefault ==> r[i].address.isDefault)
  {
    var r := defaults + others;
    forall a | a in st.addresses && st.addresses[a].owner == owner ensures exists i :: 0 <= i < |r| && r[i].id == a {
      if st.addresses[a].isDefault {
        var i :| 0 <= i < |defaults| && defaults[i].id == a;
        assert r[i].id == a;
      } else {
        var i :| 0 <= i < |others| && others[i].id == a;
        assert r[|defaults| + i].id == a;
      }
    }
    forall i, j | 0 <= i < j < |r|
      ensures r[i].id != r[j].id
      ensures r[j].address.isDefault ==> r[i].address.isDefault
    {
      if j < |defaults| {
        assert r[i] == defaults[i] && r[j] == defaults[j];
      } else if i >= |defaults| {
        assert r[i] == others[i - |defaults|] && r[j] == others[j - |defaults|];
      } else {
        assert r[i] == defaults[i] && r[j] == others[j - |defaults|];
      }
    }
  }
}

=== FILE: cart.dfy ===
/** The shopping cart: the `Cart` model of models/cart.js. */
module Cart {
  import opened Results
  import opened Schema
  import Tables
  import Products

  /** `createItem`: refuses a quantity above the product's stock, otherwise
      inserts a new row. It never merges with a row the owner already has
      for the same product. `now` is the database's `date` default. */
  function CreateItem(st: Store, owner: nat, productId: nat, quantity: int, now: int): (r: Result<Inserted>)
    ensures r.Err? <==> productId !in st.products || st.products[productId].quantity < quantity
    ensures r.Err? ==> r.error == (if productId !in st.products then ServerError else BadRequest(QuantityNotAvailable))
    ensures r.Ok? ==>
      (&& r.value.id in r.value.store.cart
       && r.value.store.cart[r.value.id] == CartRow(owner, productId, quantity, now)
       && r.value.store.cart.Keys == st.cart.Keys + {r.value.id}
       && r.value.store.(cart := st.cart, next := st.next) == st
       && (forall c :: c in st.cart && c != r.value.id ==> r.value.store.cart[c] == st.cart[c]))
    ensures r.Ok? && Fresh(st) ==> r.value.id !in st.cart && |r.value.store.cart| == |st.cart| + 1 && Fresh(r.value.store)
  {
    var enough :- Products.HasQuantity(st, productId, quantity);
    if !enough then Err(BadRequest(QuantityNotAvailable))
    else
      var id := st.next;
      Ok(Inserted(st.(cart := st.cart[id := CartRow(owner, productId, quantity, now)], next := st.next + 1), id))
  }

  /** `get`. */
  function Get(st: Store, id: nat): (r: Result<CartRow>)
    ensures r.Ok? <==> id in st.cart
    ensures r.Ok? ==> r.value == st.cart[id]
    ensures r.Err? ==> r.error == NotFound
  {
    if id in st.cart then Ok(st.cart[id]) else Err(NotFound)
  }

  /** `update`: sets the row's quantity, with no stock check. */
  function Update(st: Store, id: nat, quantity: int): (r: Result<Store>)
    ensures r.Err? <==> id !in st.cart
    ensures r.Err? ==> r.error == NotFound
    ensures r.Ok? ==> r.value.(cart := st.cart) == st && r.value.cart.Keys == st.cart.Keys
    ensures r.Ok? ==> r.value.cart[id] == st.cart[id].(quantity := quantity)
    ensures r.Ok? ==> forall c :: c in st.cart && c != id ==> r.value.cart[c] == st.cart[c]
  {
    if id !in st.cart then Err(NotFound)
    else Ok(st.(cart := st.cart[id := st.cart[id].(quantity := quantity)]))
  }

  /** `remove`: deletes the row; an absent id is NotFound. */
  function Remove(st: Store, id: nat): (r: Result<Store>)
    ensures r.Err? <==> id !in st.cart
    ensures r.Err? ==> r.error == NotFound
    ensures r.Ok? ==> r.value == st.(cart := st.cart - {id})
  {
    if id !in st.cart then Err(NotFound) else Ok(st.(cart := st.cart - {id}))
  }

  /** Removing the same row twice fails the second time. */
  lemma RemoveTwiceFails(st: Store, id: nat)
    requires Remove(st, id).Ok?
    ensures Remove(Remove(st, id).value, id) == Err(NotFound)
  {
  }

  datatype Row = Row(id: nat, item: CartRow)

  predicate ByDate(s: seq<Row>) {
    forall i, j :: 0 <= i < j < |s| ==> s[i].item.date <= s[j].item.date
  }

  /** Inserts `x` in front of the first row that is not earlier. */
  function Insert(x: Row, s: seq<Row>): (r: seq<Row>)
    ensures multiset(r) == multiset(s) + multiset{x}
    ensures ByDate(s) ==> ByDate(r)
  {
    if s == [] then [x]
    else if x.item.date <= s[0].item.date then [x] + s
    else
      var rest := Insert(x, s[1..]);
      assert s == [s[0]] + s[1..];
      InsertKeepsOrder(x, s, rest);
      [s[0]] + rest
  }

  lemma InsertKeepsOrder(x: Row, s: seq<Row>, rest: seq<Row>)
    requires s != [] && s[0].item.date < x.item.date
    requires multiset(rest) == multiset(s[1..]) + multiset{x}
    requires ByDate(s[1..]) ==> ByDate(rest)
    ensures ByDate(s) ==> ByDate([s[0]] + rest)
  {
    if ByDate(s) {
      assert ByDate(s[1..]);
      var r := [s[0]] + rest;
      forall i, j | 0 <= i < j < |r| ensures r[i].item.date <= r[j].item.date {
        if i == 0 {
          var y := r[j];
          assert y == rest[j - 1];
          assert y in multiset(rest);
          if y != x {
            assert y in multiset(s[1..]);
            var k :| 0 <= k < |s[1..]| && s[1..][k] == y;
            assert s[k + 1] == y;
          }
        } else {
          assert r[i] == rest[i - 1] && r[j] == rest[j - 1];
        }
      }
    }
  }

  /** Insertion sort by date. */
  function SortByDate(s: seq<Row>): (r: seq<Row>)
    ensures multiset(r) == multiset(s)
    ensures ByDate(r)
  {
    if s == [] then []
    else
      assert s == [s[0]] + s[1..];
      Insert(s[0], SortByDate(s[1..]))
  }

  /** The owner's rows, ordered by id. */
  function OwnerRows(st: Store, owner: nat): (r: seq<Row>)
    ensures forall i, j :: 0 <= i < j < |r| ==> r[i].id < r[j].id
    ensures forall x :: x in r <==> x.id in st.cart && st.cart[x.id] == x.item && x.item.owner == owner
  {
    var mine := set c | c in st.cart && st.cart[c].owner == owner;
    var ids := Tables.SortedKeys(mine);
    assert forall i :: 0 <= i < |ids| ==> ids[i] in mine;
    var r := seq(|ids|, i requires 0 <= i < |ids| => Row(ids[i], st.cart[ids[i]]));
    OwnerRowsContents(st, owner, mine, ids, r);
    r
  }

  lemma OwnerRowsContents(st: Store, owner: nat, mine: set<nat>, ids: seq<nat>, r: seq<Row>)
    requires mine == set c | c in st.cart && st.cart[c].owner == owner
    requires forall x :: x in ids <==> x in mine
    requires |r| == |ids| && forall i :: 0 <= i < |ids| ==> ids[i] in st.cart && r[i] == Row(ids[i], st.cart[ids[i]])
    ensures forall x :: x in r <==> x.id in st.cart && st.cart[x.id] == x.item && x.item.owner == owner
  {
    forall x: Row | x in r ensures x.id in st.cart && st.cart[x.id] == x.item && x.item.owner == owner {
      var k :| 0 <= k < |r| && r[k] == x;
      assert ids[k] in mine;
    }
    forall x: Row | x.id in st.cart && st.cart[x.id] == x.item && x.item.owner == owner ensures x in r {
      assert x.id in mine;
      var k :| 0 <= k < |ids| && ids[k] == x.id;
      assert r[k] == x;
    }
  }

  /** A sequence with strictly increasing ids holds each row once. */
  lemma {:induction false} OnceEach(s: seq<Row>)
    requires forall i, j :: 0 <= i < j < |s| ==> s[i].id < s[j].id
    ensures forall x :: x in s ==> multiset(s)[x] == 1
  {
    if s != [] {
      OnceEach(s[1..]);
      assert s == [s[0]] + s[1..];
      assert s[0] !in s[1..];
    }
  }

  /** `getAllItens`: the owner's rows, each exactly once, ordered by date.
      The order among rows with the same date is left to the database. */
  function GetAllItems(st: Store, owner: nat): (r: seq<Row>)
    ensures ByDate(r)
    ensures forall x :: multiset(r)[x] == if x.id in st.cart && st.cart[x.id] == x.item && x.item.owner == owner then 1 else 0
  {
    var rows := OwnerRows(st, owner);
    OnceEach(rows);
    SortByDate(rows)
  }
}

=== FILE: checkout.dfy ===
/** The checkout route of routes/orders.js: every item of the cart snapshot
    is checked, in order, before `Order.create` runs. */
module Checkout {
  import opened Results
  import opened Schema
  import Products
  import Orders

  type Item = Orders.CheckoutItem

  /** How much stock an item must find. The route asks for the item's own
      quantity; the corrected check asks for everything the snapshot
      requests of that product. */
  datatype Policy = PerItem | PerProduct

  function Demand(policy: Policy, items: seq<Item>, it: Item): int {
    match policy
    case PerItem => it.quantity
    case PerProduct => Orders.Requested(items, it.productId)
  }

  /** An item that clears every check: it belongs to the caller, its product
      exists and has the stock demanded, and the product is active. */
  predicate Passes(st: Store, user: nat, it: Item, demand: int) {
    && it.owner == user
    && it.productId in st.products
    && st.products[it.productId].quantity >= demand
    && st.products[it.productId].active
  }

  /** The checks on one item, in the order the route makes them: the owner,
      then the stock (a missing product makes `hasQuantity` raise), then the
      active flag. A product both short of stock and inactive is reported as
      short of stock. */
  function ItemError(st: Store, user: nat, it: Item, demand: int): (r: Option<Error>)
    ensures r.None? <==> Passes(st, user, it, demand)
    ensures r == Some(Unauthorized) <==> it.owner != user
    ensures r == Some(ServerError) <==> it.owner == user && it.productId !in st.products
    ensures r == Some(BadRequest(NoRequestedQuantity)) <==>
      it.owner == user && it.productId in st.products && st.products[it.productId].quantity < demand
    ensures r == Some(BadRequest(NoLongerAvailable)) <==>
      && it.owner == user && it.productId in st.products
      && st.products[it.productId].quantity >= demand && !st.products[it.productId].active
  {
    if it.owner != user then Some(Unauthorized)
    else match Products.HasQuantity(st, it.productId, demand)
      case Err(e) => Some(e)
      case Ok(enough) =>
        if !enough then Some(BadRequest(NoRequestedQuantity))
        else if !st.products[it.productId].active then Some(BadRequest(NoLongerAvailable))
        else None
  }

  predicate PassesAt(st: Store, user: nat, items: seq<Item>, policy: Policy, i: nat)
    requires i < |items|
  {
    Passes(st, user, items[i], Demand(policy, items, items[i]))
  }

  function ErrorAt(st: Store, user: nat, items: seq<Item>, policy: Policy, i: nat): Option<Error>
    requires i < |items|
  {
    ItemError(st, user, items[i], Demand(policy, items, items[i]))
  }

  /** Item `i` is the first that fails. */
  predicate FirstFailure(st: Store, user: nat, items: seq<Item>, policy: Policy, i: nat) {
    && i < |items|
    && !PassesAt(st, user, items, policy, i)
    && forall j :: 0 <= j < i ==> PassesAt(st, user, items, policy, j)
  }

  /** The validation loop from item `k` on: the error of the first failing
      item, or None when every item passes. */
  function ValidateFrom(st: Store, user: nat, items: seq<Item>, policy: Policy, k: nat): (r: Option<Error>)
    requires k <= |items|
    ensures r.None? <==> forall i :: k <= i < |items| ==> PassesAt(st, user, items, policy, i)
    ensures r.Some? ==> exists i :: (
      && k <= i < |items| && r == ErrorAt(st, user, items, policy, i)
      && !PassesAt(st, user, items, policy, i)
      && forall j :: k <= j < i ==> PassesAt(st, user, items, policy, j))
    decreases |items| - k
  {
    if k == |items| then None
    else
      var e := ErrorAt(st, user, items, policy, k);
      if e.Some? then
        assert !PassesAt(st, user, items, policy, k);
        e
      else
        assert PassesAt(st, user, items, policy, k);
        ValidateFrom(st, user, items, policy, k + 1)
  }

  function Validate(st: Store, user: nat, items: seq<Item>, policy: Policy): (r: Option<Error>)
    ensures r.None? <==> forall i :: 0 <= i < |items| ==> PassesAt(st, user, items, policy, i)
    ensures r.Some? ==> exists i :: FirstFailure(st, user, items, policy, i) && r == ErrorAt(st, user, items, policy, i)
  {
    ValidateFrom(st, user, items, policy, 0)
  }

  /** The first failing item decides the error; there is only one. */
  lemma FirstFailureUnique(st: Store, user: nat, items: seq<Item>, policy: Policy, i: nat, j: nat)
    requires FirstFailure(st, user, items, policy, i) && FirstFailure(st, user, items, policy, j)
    ensures i == j
  {
  }

  /** Validation reports exactly the first failing item's error. */
  lemma ValidateReportsFirst(st: Store, user: nat, items: seq<Item>, policy: Policy, i: nat)
    requires FirstFailure(st, user, items, policy, i)
    ensures Validate(st, user, items, policy) == ErrorAt(st, user, items, policy, i)
    ensures Validate(st, user, items, policy).Some?
  {
    assert !PassesAt(st, user, items, policy, i);
    var r := Validate(st, user, items, policy);
    var j :| FirstFailure(st, user, items, policy, j) && r == ErrorAt(st, user, items, policy, j);
    FirstFailureUnique(st, user, items, policy, i, j);
  }

  /** `POST /checkout`: validation, then the commit. The route as written
      uses the `PerItem` policy. Nothing is written unless every item
      passes, and a failure reports the first failing item's error. */
  function Checkout(st: Store, user: nat, items: seq<Item>, policy: Policy, transactionId: string, date: int, faults: Orders.Faults): (c: Orders.Commit)
    ensures (forall i :: 0 <= i < |items| ==> PassesAt(st, user, items, policy, i)) ==>
      c == Orders.Create(st, items, transactionId, date, faults)
    ensures forall i :: FirstFailure(st, user, items, policy, i) ==>
      c.store == st && c.outcome == Orders.Raised(ErrorAt(st, user, items, policy, i).value)
    ensures c.outcome.Created? ==> forall i :: 0 <= i < |items| ==> PassesAt(st, user, items, policy, i)
  {
    match Validate(st, user, items, policy)
    case Some(e) =>
      forall i | FirstFailure(st, user, items, policy, i)
        ensures Orders.Raised(e) == Orders.Raised(ErrorAt(st, user, items, policy, i).value)
      {
        ValidateReportsFirst(st, user, items, policy, i);
      }
      Orders.Commit(st, Orders.Raised(e))
    case None => Orders.Create(st, items, transactionId, date, faults)
  }

  /** A product no item names is requested zero times. */
  lemma {:induction false} RequestedNone(items: seq<Item>, productId: nat)
    requires forall i :: 0 <= i < |items| ==> items[i].productId != productId
    ensures Orders.Requested(items, productId) == 0
  {
    if items != [] {
      RequestedNone(items[1..], productId);
    }
  }

  /** A product exactly one item names is requested that item's quantity. */
  lemma {:induction false} RequestedOnce(items: seq<Item>, k: nat)
    requires k < |items|
    requires forall i :: 0 <= i < |items| && i != k ==> items[i].productId != items[k].productId
    ensures Orders.Requested(items, items[k].productId) == items[k].quantity
  {
    if k == 0 {
      RequestedNone(items[1..], items[0].productId);
    } else {
      RequestedOnce(items[1..], k - 1);
    }
  }

  /** A commit that went through leaves every product at its stock minus
      what the snapshot requested, with the matching status, whenever that
      is not negative. */
  lemma CommitLeavesStock(st: Store, items: seq<Item>, transactionId: string, date: int, faults: Orders.Faults)
    requires Products.StockConsistent(st)
    requires Orders.Create(st, items, transactionId, date, faults).outcome.Created?
    ensures var r := Orders.Create(st, items, transactionId, date, faults).store;
      && r.products.Keys == st.products.Keys
      && forall id :: id in st.products && st.products[id].quantity >= Orders.Requested(items, id) ==>
        Products.Consistent(r.products[id])
  {
    Orders.CreateSucceeds(st, items, transactionId, date, faults);
    Orders.CreateTracks(st, items, transactionId, date, faults);
  }

  /** The corrected check keeps the inventory invariant: after a successful
      checkout no product has a negative quantity or a status out of step
      with its quantity. */
  lemma SafeCheckoutKeepsStock(st: Store, user: nat, items: seq<Item>, transactionId: string, date: int, faults: Orders.Faults)
    requires Products.StockConsistent(st)
    requires Checkout(st, user, items, PerProduct, transactionId, date, faults).outcome.Created?
    ensures Products.StockConsistent(Checkout(st, user, items, PerProduct, transactionId, date, faults).store)
  {
    CommitLeavesStock(st, items, transactionId, date, faults);
    var r := Orders.Create(st, items, transactionId, date, faults).store;
    forall id | id in r.products ensures Products.Consistent(r.products[id]) {
      if exists i :: 0 <= i < |items| && items[i].productId == id {
        var i :| 0 <= i < |items| && items[i].productId == id;
        assert PassesAt(st, user, items, PerProduct, i);
      } else {
        RequestedNone(items, id);
      }
    }
  }

  /** When no two items name the same product, the route's own check is
      enough to keep the inventory invariant. */
  lemma CheckoutKeepsStockWithoutRepeats(st: Store, user: nat, items: seq<Item>, transactionId: string, date: int, faults: Orders.Faults)
    requires Products.StockConsistent(st)
    requires forall i, j :: 0 <= i < j < |items| ==> items[i].productId != items[j].productId
    requires Checkout(st, user, items, PerItem, transactionId, date, faults).outcome.Created?
    ensures Products.StockConsistent(Checkout(st, user, items, PerItem, transactionId, date, faults).store)
  {
    CommitLeavesStock(st, items, transactionId, date, faults);
    var r := Orders.Create(st, items, transactionId, date, faults).store;
    forall id | id in r.products ensures Products.Consistent(r.products[id]) {
      if exists i :: 0 <= i < |items| && items[i].productId == id {
        var i :| 0 <= i < |items| && items[i].productId == id;
        assert PassesAt(st, user, items, PerItem, i);
        RequestedOnce(items, i);
      } else {
        RequestedNone(items, id);
      }
    }
  }

  /** The route as written lets two cart rows for the same product each
      claim the whole stock: a lamp with 3 in stock and two rows of 3 both
      pass, and the checkout goes through leaving -3 lamps. */
  lemma OverdrawnByRepeats()
    ensures var lamp := Product(7, "lamp", 10, 3, "", Available, true);
      var st := Store(map[1 := lamp], map[], map[], map[10 := CartRow(5, 1, 3, 0), 11 := CartRow(5, 1, 3, 0)], map[], 20);
      var items := [Orders.CheckoutItem(10, 5, 1, 3, 10), Orders.CheckoutItem(11, 5, 1, 3, 10)];
      var c := Checkout(st, 5, items, PerItem, "t", 0, Orders.NoFaults);
      && Products.StockConsistent(st)
      && c.outcome == Orders.Created(20)
      && c.store.products[1].quantity == -3
      && !Products.StockConsistent(c.store)
  {
    var lamp := Product(7, "lamp", 10, 3, "", Available, true);
    var st := Store(map[1 := lamp], map[], map[], map[10 := CartRow(5, 1, 3, 0), 11 := CartRow(5, 1, 3, 0)], map[], 20);
    var items := [Orders.CheckoutItem(10, 5, 1, 3, 10), Orders.CheckoutItem(11, 5, 1, 3, 10)];
    assert PassesAt(st, 5, items, PerItem, 0) && PassesAt(st, 5, items, PerItem, 1);
    Orders.CreateCompletes(st, items, "t", 0);
    Orders.CreateSucceeds(st, items, "t", 0, Orders.NoFaults);
    assert items[1..][1..] == [];
    assert Orders.Requested(items, 1) == 6;
  }
}

=== FILE: image_type.dfy ===
/** The upload filter of helpers/checkImageFileType.js: a MIME type is an
    image type when the regular expression `/jpeg|jpg|png|gif/` finds a
    match anywhere in it. The pattern has no anchors and no `i` flag. */
module ImageType {
  import opened Results

  /** `t` occurs in `s` at position `i`, character for character. */
  predicate At(s: string, t: string, i: int) {
    0 <= i && i + |t| <= |s| && s[i..i + |t|] == t
  }

  predicate Contains(s: string, t: string) {
    exists i :: 0 <= i <= |s| && At(s, t, i)
  }

  /** The accepted MIME types: those with one of the four tokens inside. */
  predicate IsImageType(mimetype: string) {
    Contains(mimetype, "jpeg") || Contains(mimetype, "jpg") || Contains(mimetype, "png") || Contains(mimetype, "gif")
  }

  /** One of the alternatives of the pattern matches at position `i`. */
  predicate TokenAt(s: string, i: int) {
    At(s, "jpeg", i) || At(s, "jpg", i) || At(s, "png", i) || At(s, "gif", i)
  }

  /** An image type is one where some alternative matches at some position. */
  lemma TokenSomewhere(s: string)
    ensures IsImageType(s) <==> exists i :: 0 <= i <= |s| && TokenAt(s, i)
  {
    if IsImageType(s) {
      var i :| 0 <= i <= |s| && (At(s, "jpeg", i) || At(s, "jpg", i) || At(s, "png", i) || At(s, "gif", i));
      assert TokenAt(s, i);
    }
    if exists i :: 0 <= i <= |s| && TokenAt(s, i) {
      var i :| 0 <= i <= |s| && TokenAt(s, i);
      if At(s, "jpeg", i) {
        assert Contains(s, "jpeg");
      } else if At(s, "jpg", i) {
        assert Contains(s, "jpg");
      } else if At(s, "png", i) {
        assert Contains(s, "png");
      } else {
        assert Contains(s, "gif");
      }
    }
  }

  /** `filetypes.test(mimetype)`: the engine tries each start position in
      turn and stops at the first where an alternative matches. */
  method Test(mimetype: string) returns (found: bool)
    ensures found <==> IsImageType(mimetype)
  {
    found := false;
    var i := 0;
    while i <= |mimetype| && !found
      invariant 0 <= i <= |mimetype| + 1
      invariant found ==> TokenAt(mimetype, i - 1)
      invariant !found ==> forall j :: 0 <= j < i ==> !TokenAt(mimetype, j)
    {
      found := TokenAt(mimetype, i);
      i := i + 1;
    }
    TokenSomewhere(mimetype);
    if found {
      assert TokenAt(mimetype, i - 1);
    }
  }

  /** What the callback receives: an error, and the accepted flag. */
  datatype Callback = Callback(error: Option<Error>, accepted: Option<bool>)

  /** `checkImageFileType`: `cb(null, true)` for an image type, otherwise
      `cb(new BadRequestError(...))` with no second argument. */
  method CheckImageFileType(mimetype: string) returns (cb: Callback)
    ensures IsImageType(mimetype) <==> cb == Callback(None, Some(true))
    ensures !IsImageType(mimetype) <==> cb == Callback(Some(BadRequest(OnlyImages)), None)
    ensures cb.accepted != Some(true) ==> cb.error.Some?
  {
    var ok := Test(mimetype);
    if ok {
      cb := Callback(None, Some(true));
    } else {
      cb := Callback(Some(BadRequest(OnlyImages)), None);
    }
  }

  /** Every token starts with `j`, `p` or `g`, so a string without those
      letters is never an image type. */
  lemma NoTokenLetter(s: string)
    requires forall i :: 0 <= i < |s| ==> s[i] != 'j' && s[i] != 'p' && s[i] != 'g'
    ensures !IsImageType(s)
  {
    forall i | 0 <= i <= |s| ensures !TokenAt(s, i) {
      if i < |s| {
        assert s[i] != 'j' && s[i] != 'p' && s[i] != 'g';
      }
    }
    TokenSomewhere(s);
  }

  /** The match is case-sensitive: an upper-case type is refused. */
  lemma UpperCaseRefused()
    ensures !IsImageType("IMAGE/PNG")
  {
    NoTokenLetter("IMAGE/PNG");
  }

  /** The match is unanchored: a token anywhere is enough. */
  lemma TokenAnywhereAccepted()
    ensures IsImageType("image/jpeg")
    ensures IsImageType("application/x-png-archive")
    ensures IsImageType("notagif")
  {
    assert At("image/jpeg", "jpeg", 6);
    assert At("application/x-png-archive", "png", 14);
    assert At("notagif", "gif", 4);
  }
}

=== FILE: like.dfy ===
/** PostgreSQL `ILIKE` pattern matching: `%` matches any run of characters,
    `_` any single character, every other character itself ignoring case.
    Case folding is modelled for ASCII letters only. */
module Like {

  function Fold(c: char): char {
    if 'A' <= c <= 'Z' then (c as int + 32) as char else c
  }

  /** `s ILIKE p` (the escape character is not modelled). */
  function Matches(s: string, p: string): bool
    decreases |s| + |p|
  {
    if |p| == 0 then |s| == 0
    else if p[0] == '%' then Matches(s, p[1..]) || (|s| > 0 && Matches(s[1..], p))
    else |s| > 0 && (p[0] == '_' || Fold(p[0]) == Fold(s[0])) && Matches(s[1..], p[1..])
  }

  /** A pattern without wildcards. */
  predicate Literal(p: string) {
    forall i :: 0 <= i < |p| ==> p[i] != '%' && p[i] != '_'
  }

  /** Equal up to letter case. */
  predicate EqualCI(a: string, b: string) {
    |a| == |b| && forall i :: 0 <= i < |a| ==> Fold(a[i]) == Fold(b[i])
  }

  predicate EndsWithCI(s: string, t: string) {
    |t| <= |s| && EqualCI(s[|s| - |t|..], t)
  }

  /** `t` occurs in `s` at position `i`, up to case. */
  predicate OccursAt(s: string, t: string, i: int) {
    0 <= i <= |s| - |t| && EqualCI(s[i..i + |t|], t)
  }

  predicate ContainsCI(s: string, t: string) {
    exists i :: 0 <= i <= |s| && OccursAt(s, t, i)
  }

  /** A literal pattern matches exactly the strings equal to it up to case. */
  lemma {:induction false} LiteralMatch(s: string, p: string)
    requires Literal(p)
    ensures Matches(s, p) <==> EqualCI(s, p)
    decreases |p|
  {
    if |p| > 0 && |s| > 0 {
      LiteralMatch(s[1..], p[1..]);
      if EqualCI(s, p) {
        assert EqualCI(s[1..], p[1..]) by {
          forall i | 0 <= i < |s| - 1 ensures Fold(s[1..][i]) == Fold(p[1..][i]) {
            assert s[1..][i] == s[i + 1];
          }
        }
      }
      if Matches(s, p) {
        forall i | 0 <= i < |s| ensures Fold(s[i]) == Fold(p[i]) {
          if i > 0 {
            assert s[1..][i - 1] == s[i];
          }
        }
      }
    }
  }

  /** A leading `%` lets the rest of the pattern match any suffix. */
  lemma {:induction false} LeadingPercent(s: string, p: string)
    ensures Matches(s, "%" + p) <==> exists i :: 0 <= i <= |s| && Matches(s[i..], p)
    decreases |s|
  {
    var q := "%" + p;
    assert q[1..] == p;
    if |s| == 0 {
      assert s[0..] == s;
    } else {
      LeadingPercent(s[1..], p);
      if Matches(s, q) {
        if !Matches(s, p) {
          var i :| 0 <= i <= |s[1..]| && Matches(s[1..][i..], p);
          assert s[1..][i..] == s[i + 1..];
        } else {
          assert s[0..] == s;
        }
      }
      if exists i :: 0 <= i <= |s| && Matches(s[i..], p) {
        var i :| 0 <= i <= |s| && Matches(s[i..], p);
        if i == 0 {
          assert s[0..] == s;
        } else {
          assert s[1..][i - 1..] == s[i..];
        }
      }
    }
  }

  /** A trailing `%` after a literal prefix accepts any continuation. */
  lemma {:induction false} TrailingPercent(s: string, p: string)
    requires Literal(p)
    ensures Matches(s, p + "%") <==> |p| <= |s| && EqualCI(s[..|p|], p)
    decreases |p|
  {
    var q := p + "%";
    if |p| == 0 {
      assert q == "%";
      AnythingMatchesPercent(s);
    } else {
      assert q[1..] == p[1..] + "%";
      if |s| > 0 {
        TrailingPercent(s[1..], p[1..]);
        if |p| <= |s| {
          assert s[1..][..|p| - 1] == s[..|p|][1..];
          EqualCIStep(s[..|p|], p);
        }
      }
    }
  }

  lemma EqualCIStep(a: string, b: string)
    requires |a| == |b| > 0
    ensures EqualCI(a, b) <==> Fold(a[0]) == Fold(b[0]) && EqualCI(a[1..], b[1..])
  {
    if Fold(a[0]) == Fold(b[0]) && EqualCI(a[1..], b[1..]) {
      forall i | 0 <= i < |a| ensures Fold(a[i]) == Fold(b[i]) {
        if i > 0 {
          assert a[1..][i - 1] == a[i];
          assert b[1..][i - 1] == b[i];
        }
      }
    }
  }

  lemma {:induction false} AnythingMatchesPercent(s: string)
    ensures Matches(s, "%")
    decreases |s|
  {
    assert "%"[1..] == "";
    if |s| > 0 {
      AnythingMatchesPercent(s[1..]);
    }
  }

  /** `ILIKE '%name'` with a literal name is a case-insensitive suffix test. */
  lemma SuffixPattern(s: string, name: string)
    requires Literal(name)
    ensures Matches(s, "%" + name) <==> EndsWithCI(s, name)
  {
    LeadingPercent(s, name);
    if Matches(s, "%" + name) {
      var i :| 0 <= i <= |s| && Matches(s[i..], name);
      LiteralMatch(s[i..], name);
      assert i == |s| - |name|;
    }
    if EndsWithCI(s, name) {
      LiteralMatch(s[|s| - |name|..], name);
    }
  }

  /** `ILIKE '%name%'` with a literal name is a case-insensitive substring test. */
  lemma InfixPattern(s: string, name: string)
    requires Literal(name)
    ensures Matches(s, "%" + name + "%") <==> ContainsCI(s, name)
  {
    var q := name + "%";
    assert "%" + name + "%" == "%" + q;
    LeadingPercent(s, q);
    if Matches(s, "%" + q) {
      var i :| 0 <= i <= |s| && Matches(s[i..], q);
      TrailingPercent(s[i..], name);
      assert s[i..][..|name|] == s[i..i + |name|];
      assert OccursAt(s, name, i);
    }
    if ContainsCI(s, name) {
      var i :| 0 <= i <= |s| && OccursAt(s, name, i);
      assert s[i..][..|name|] == s[i..i + |name|];
      TrailingPercent(s[i..], name);
    }
  }
}

=== FILE: order_queries.dfy ===
/** The read side of models/orders.js: the products of one order, the
    buyer's view and the seller's view. The `users` join only adds names
    and e-mails, so every user is taken to exist. */
module OrderQueries {
  import opened Results
  import opened Schema
  import Tables

  /** A row of `getAllProductsFromOrder`: a line of the order, its product,
      and one default address of the product's seller. */
  datatype ProductRow = ProductRow(lineId: nat, line: OrderLine, product: Product, addressId: nat, address: Address)

  /** The inner joins and the `is_default` condition of the query. */
  predicate Joined(st: Store, orderId: nat, x: ProductRow) {
    && x.lineId in st.lines && x.line == st.lines[x.lineId] && x.line.orderId == orderId
    && x.line.productId in st.products && x.product == st.products[x.line.productId]
    && x.addressId in st.addresses && x.address == st.addresses[x.addressId]
    && x.address.owner == x.product.owner && x.address.isDefault
  }

  /** The lines of the order whose product still exists. */
  function OrderLines(st: Store, orderId: nat): set<nat> {
    set l | l in st.lines && st.lines[l].orderId == orderId && st.lines[l].productId in st.products
  }

  /** No two rows pair the same line with the same address: the join
      yields each (line, address) pair at most once. */
  predicate Unique(rows: seq<ProductRow>) {
    forall i, j :: 0 <= i < j < |rows| ==> rows[i].lineId != rows[j].lineId || rows[i].addressId != rows[j].addressId
  }

  /** The rows one line yields: one per default address of its seller. */
  function RowsOfLine(st: Store, orderId: nat, l: nat): (r: seq<ProductRow>)
    requires l in OrderLines(st, orderId)
    ensures forall x :: x in r <==> x.lineId == l && Joined(st, orderId, x)
    ensures Unique(r)
  {
    var line := st.lines[l];
    var p := st.products[line.productId];
    var defaults := set a | a in st.addresses && st.addresses[a].owner == p.owner && st.addresses[a].isDefault;
    var ids := Tables.SortedKeys(defaults);
    assert forall i :: 0 <= i < |ids| ==> ids[i] in defaults;
    var r := RowsAt(st, l, line, p, ids);
    assert forall x: ProductRow :: x.lineId == l && Joined(st, orderId, x) ==> x == r[Tables.IndexOf(ids, x.addressId)];
    UniqueByAddress(r, ids);
    r
  }

  /** One row per listed address, for the given line and product. */
  function RowsAt(st: Store, l: nat, line: OrderLine, p: Product, ids: seq<nat>): (r: seq<ProductRow>)
    requires forall i :: 0 <= i < |ids| ==> ids[i] in st.addresses
    ensures |r| == |ids|
    ensures forall i :: 0 <= i < |ids| ==> r[i] == ProductRow(l, line, p, ids[i], st.addresses[ids[i]])
  {
    seq(|ids|, i requires 0 <= i < |ids| => ProductRow(l, line, p, ids[i], st.addresses[ids[i]]))
  }

  /** Rows whose addresses are increasing ids are unique. */
  lemma UniqueByAddress(r: seq<ProductRow>, ids: seq<nat>)
    requires Tables.Increasing(ids)
    requires |r| == |ids| && forall i :: 0 <= i < |r| ==> r[i].addressId == ids[i]
    ensures Unique(r)
  {
    forall i, j | 0 <= i < j < |r| ensures r[i].addressId != r[j].addressId {
      assert ids[i] < ids[j];
    }
  }

  /** The rows of the given lines, line after line. */
  function RowsOfLines(st: Store, orderId: nat, lineIds: seq<nat>): (r: seq<ProductRow>)
    requires forall i :: 0 <= i < |lineIds| ==> lineIds[i] in OrderLines(st, orderId)
    requires Tables.Distinct(lineIds)
    ensures forall x :: x in r <==> x.lineId in lineIds && Joined(st, orderId, x)
    ensures Unique(r)
  {
    if lineIds == [] then []
    else
      var first := RowsOfLine(st, orderId, lineIds[0]);
      var rest := RowsOfLines(st, orderId, lineIds[1..]);
      assert forall l :: l in lineIds <==> l == lineIds[0] || l in lineIds[1..];
      UniqueAppend(first, rest, lineIds[0]);
      first + rest
  }

  /** Rows of one line followed by rows of other lines stay unique. */
  lemma UniqueAppend(first: seq<ProductRow>, rest: seq<ProductRow>, l: nat)
    requires Unique(first) && Unique(rest)
    requires forall x :: x in first ==> x.lineId == l
    requires forall x :: x in rest ==> x.lineId != l
    ensures Unique(first + rest)
  {
    var r := first + rest;
    forall i, j | 0 <= i < j < |r|
      ensures r[i].lineId != r[j].lineId || r[i].addressId != r[j].addressId
    {
      if j < |first| {
        assert r[i] == first[i] && r[j] == first[j];
      } else if i >= |first| {
        assert r[i] == rest[i - |first|] && r[j] == rest[j - |first|];
      } else {
        assert r[i] == first[i] && r[j] == rest[j - |first|];
        assert r[i] in first && r[j] in rest;
      }
    }
  }

  /** `getAllProductsFromOrder`: every joined row of the order, lines by id;
      NotFound when no row survives the joins. */
  function ProductsFromOrder(st: Store, orderId: nat): (r: Result<seq<ProductRow>>)
    ensures r.Ok? ==> forall x :: x in r.value <==> Joined(st, orderId, x)
    ensures r.Ok? ==> Unique(r.value)
    ensures r.Err? <==> forall x :: !Joined(st, orderId, x)
    ensures r.Err? ==> r.error == NotFound
  {
    var lines := OrderLines(st, orderId);
    var lineIds := Tables.SortedKeys(lines);
    assert forall i :: 0 <= i < |lineIds| ==> lineIds[i] in lines;
    var rows := RowsOfLines(st, orderId, lineIds);
    assert forall x :: Joined(st, orderId, x) ==> x.lineId in lines;
    if rows == [] then
      assert forall x :: !Joined(st, orderId, x);
      Err(NotFound)
    else
      assert rows[0] in rows;
      Ok(rows)
  }

  /** An order in the buyer's view, with its products. */
  datatype BuyerOrder = BuyerOrder(id: nat, order: Order, products: seq<ProductRow>)

  /** What `getAllProductsFromOrder` gives for each order id. The reads
      have no side effect, so fetching them before the loop gives the loop
      the same answers. */
  function Fetch(st: Store, ids: seq<nat>): (r: seq<Result<seq<ProductRow>>>)
    ensures |r| == |ids|
    ensures forall i :: 0 <= i < |ids| ==> r[i] == ProductsFromOrder(st, ids[i])
  {
    seq(|ids|, i requires 0 <= i < |ids| => ProductsFromOrder(st, ids[i]))
  }

  /** The loop of `getOrdersForBuyer`: each order gets its products in turn;
      the first failed fetch stops the call with its error. */
  function BuyerOrders(orders: map<nat, Order>, ids: seq<nat>, fetched: seq<Result<seq<ProductRow>>>): (r: Result<seq<BuyerOrder>>)
    requires |fetched| == |ids|
    requires forall i :: 0 <= i < |ids| ==> ids[i] in orders
    ensures r.Ok? <==> forall i :: 0 <= i < |ids| ==> fetched[i].Ok?
    ensures r.Err? ==> exists i :: 0 <= i < |ids| && fetched[i] == Err(r.error)
    ensures r.Ok? ==> |r.value| == |ids| && forall i :: 0 <= i < |ids| ==>
      r.value[i] == BuyerOrder(ids[i], orders[ids[i]], fetched[i].value)
  {
    if ids == [] then Ok([])
    else if fetched[0].Err? then Err(fetched[0].error)
    else
      var rest := BuyerOrders(orders, ids[1..], fetched[1..]);
      if rest.Err? then
        var i :| 0 <= i < |ids| - 1 && fetched[1..][i] == Err(rest.error);
        assert fetched[i + 1] == Err(rest.error);
        Err(rest.error)
      else
        var r := [BuyerOrder(ids[0], orders[ids[0]], fetched[0].value)] + rest.value;
        forall i | 0 <= i < |ids|
          ensures r[i] == BuyerOrder(ids[i], orders[ids[i]], fetched[i].value)
        {
          if i > 0 {
            assert r[i] == rest.value[i - 1];
            assert ids[1..][i - 1] == ids[i] && fetched[1..][i - 1] == fetched[i];
          }
        }
        forall i | 0 <= i < |ids| ensures fetched[i].Ok? {
          if i > 0 {
            assert fetched[1..][i - 1] == fetched[i];
          }
        }
        Ok(r)
  }

  /** The orders the user bought. */
  function BoughtBy(st: Store, user: nat): set<nat> {
    set o | o in st.orders && st.orders[o].buyer == Some(user)
  }

  /** An entry of the buyer's view: one of the user's orders as stored,
      with what `getAllProductsFromOrder` returns for it. */
  predicate BuyerEntry(st: Store, user: nat, e: BuyerOrder) {
    && e.id in st.orders && e.order == st.orders[e.id]
    && e.order.buyer == Some(user)
    && ProductsFromOrder(st, e.id) == Ok(e.products)
  }

  /** The buyer's view lists every order the user bought, once, by id. */
  ghost predicate BuyerView(st: Store, user: nat, view: seq<BuyerOrder>) {
    && (forall o :: o in BoughtBy(st, user) <==> exists i :: 0 <= i < |view| && view[i].id == o)
    && (forall i, j :: 0 <= i < j < |view| ==> view[i].id < view[j].id)
    && (forall i :: 0 <= i < |view| ==> BuyerEntry(st, user, view[i]))
  }

  /** `getOrdersForBuyer`: the user's orders, each with its products; an
      order whose products cannot be fetched fails the whole call. The
      query has no ORDER BY; this model lists the orders by id. */
  function OrdersForBuyer(st: Store, user: nat): (r: Result<seq<BuyerOrder>>)
    ensures r == Ok([]) <==> BoughtBy(st, user) == {}
    ensures r.Err? ==> r.error == NotFound && exists o :: o in BoughtBy(st, user) && ProductsFromOrder(st, o).Err?
    ensures r.Ok? ==> BuyerView(st, user, r.value)
  {
    var bought := BoughtBy(st, user);
    var ids := Tables.SortedKeys(bought);
    if ids == [] then
      assert forall o :: o in bought ==> o in ids;
      Ok([])
    else
      assert forall i :: 0 <= i < |ids| ==> ids[i] in bought;
      var fetched := Fetch(st, ids);
      var r := BuyerOrders(st.orders, ids, fetched);
      if r.Err? then
        var i :| 0 <= i < |ids| && fetched[i] == Err(r.error);
        assert ids[i] in bought && ProductsFromOrder(st, ids[i]).Err?;
        r
      else
        BuyerViewOf(st, user, ids, fetched, r.value);
        r
  }

  /** The loop's result over the bought orders by id is the buyer's view. */
  lemma BuyerViewOf(st: Store, user: nat, ids: seq<nat>, fetched: seq<Result<seq<ProductRow>>>, view: seq<BuyerOrder>)
    requires Tables.Increasing(ids)
    requires forall o :: o in ids <==> o in BoughtBy(st, user)
    requires |fetched| == |ids| && forall i :: 0 <= i < |ids| ==> fetched[i] == ProductsFromOrder(st, ids[i]) && fetched[i].Ok?
    requires |view| == |ids| && forall i :: 0 <= i < |ids| ==>
      ids[i] in st.orders && view[i] == BuyerOrder(ids[i], st.orders[ids[i]], fetched[i].value)
    ensures BuyerView(st, user, view)
  {
    forall o | o in BoughtBy(st, user) ensures exists i :: 0 <= i < |view| && view[i].id == o {
      var i := Tables.IndexOf(ids, o);
      assert view[i].id == o;
    }
    forall i | 0 <= i < |view| ensures BuyerEntry(st, user, view[i]) {
      assert ids[i] in BoughtBy(st, user);
    }
  }

  /** The lines of products the user sells. */
  function SoldBy(st: Store, user: nat): set<nat> {
    set l | l in st.lines && st.lines[l].productId in st.products && st.products[st.lines[l].productId].owner == user
  }

  /** The orders with a line of the user's products. */
  function SellerOrderIds(st: Store, user: nat): set<nat> {
    set l | l in SoldBy(st, user) :: st.lines[l].orderId
  }

  /** The seller's own rows: `products.filter(prod => prod.seller === userId)`. */
  function OwnRows(rows: seq<ProductRow>, user: nat): (r: seq<ProductRow>)
    ensures forall x :: x in r <==> x in rows && x.product.owner == user
    ensures Unique(rows) ==> Unique(r)
    ensures |r| <= |rows|
  {
    if rows == [] then []
    else
      var rest := OwnRows(rows[1..], user);
      assert forall x :: x in rows <==> x == rows[0] || x in rows[1..];
      KeepUnique(rows, rest);
      if rows[0].product.owner == user then [rows[0]] + rest else rest
  }

  /** Rows filtered out of the tail of a unique list stay unique, with or
      without the head in front. */
  lemma KeepUnique(rows: seq<ProductRow>, rest: seq<ProductRow>)
    requires rows != []
    requires Unique(rows[1..]) ==> Unique(rest)
    requires forall x :: x in rest ==> x in rows[1..]
    ensures Unique(rows) ==> Unique(rest) && Unique([rows[0]] + rest)
  {
    if !Unique(rows) {
      return;
    }
    forall i, j | 0 <= i < j < |rows| - 1
      ensures rows[1..][i].lineId != rows[1..][j].lineId || rows[1..][i].addressId != rows[1..][j].addressId
    {
      assert rows[1..][i] == rows[i + 1] && rows[1..][j] == rows[j + 1];
    }
    var r := [rows[0]] + rest;
    forall i, j | 0 <= i < j < |r|
      ensures r[i].lineId != r[j].lineId || r[i].addressId != r[j].addressId
    {
      assert r[j] == rest[j - 1];
      if i > 0 {
        assert r[i] == rest[i - 1];
      } else {
        assert rest[j - 1] in rows[1..];
        var k :| 0 <= k < |rows| - 1 && rows[1..][k] == rest[j - 1];
        assert rows[k + 1] == r[j];
      }
    }
  }

  /** An order in the seller's view, with the seller's rows only. */
  datatype SellerOrder = SellerOrder(id: nat, order: Order, products: seq<ProductRow>)

  /** The loop of `getOrdersForSeller`. The products are fetched before
      they are set on the order row, so a failed fetch wins; setting them on
      a missing order row then raises a TypeError. */
  function SellerOrders(orders: map<nat, Order>, user: nat, ids: seq<nat>, fetched: seq<Result<seq<ProductRow>>>): (r: Result<seq<SellerOrder>>)
    requires |fetched| == |ids|
    ensures r.Ok? <==> forall i :: 0 <= i < |ids| ==> fetched[i].Ok? && ids[i] in orders
    ensures r.Err? ==> exists i :: 0 <= i < |ids| && (fetched[i] == Err(r.error) || (fetched[i].Ok? && ids[i] !in orders && r.error == ServerError))
    ensures r.Ok? ==> |r.value| == |ids| && forall i :: 0 <= i < |ids| ==>
      r.value[i] == SellerOrder(ids[i], orders[ids[i]], OwnRows(fetched[i].value, user))
  {
    if ids == [] then Ok([])
    else if fetched[0].Err? then Err(fetched[0].error)
    else if ids[0] !in orders then Err(ServerError)
    else
      var rest := SellerOrders(orders, user, ids[1..], fetched[1..]);
      if rest.Err? then
        var i :| 0 <= i < |ids| - 1 && (fetched[1..][i] == Err(rest.error) || (fetched[1..][i].Ok? && ids[1..][i] !in orders && rest.error == ServerError));
        assert fetched[i + 1] == fetched[1..][i] && ids[i + 1] == ids[1..][i];
        Err(rest.error)
      else
        var r := [SellerOrder(ids[0], orders[ids[0]], OwnRows(fetched[0].value, user))] + rest.value;
        forall i | 0 <= i < |ids|
          ensures fetched[i].Ok? && ids[i] in orders
          ensures r[i] == SellerOrder(ids[i], orders[ids[i]], OwnRows(fetched[i].value, user))
        {
          if i > 0 {
            assert r[i] == rest.value[i - 1];
            assert ids[1..][i - 1] == ids[i] && fetched[1..][i - 1] == fetched[i];
          }
        }
        Ok(r)
  }

  /** The order ids of the user's lines, in line-id order, each kept at its
      first occurrence (`new Set(...)`). */
  function SellerOrderList(st: Store, user: nat): (ids: seq<nat>)
    ensures Tables.Distinct(ids)
    ensures forall o :: o in ids <==> o in SellerOrderIds(st, user)
    ensures ids == [] <==> SoldBy(st, user) == {}
  {
    var lineIds := Tables.SortedKeys(SoldBy(st, user));
    SoldLinesStored(st, user, lineIds);
    var orderOf := OrdersOfLines(st, lineIds);
    OrdersOfSoldLines(st, user, lineIds, orderOf);
    Tables.Dedup(orderOf)
  }

  /** The lines the user sold are stored lines. */
  lemma SoldLinesStored(st: Store, user: nat, lineIds: seq<nat>)
    requires forall l :: l in lineIds <==> l in SoldBy(st, user)
    ensures forall i :: 0 <= i < |lineIds| ==> lineIds[i] in st.lines
  {
    forall i | 0 <= i < |lineIds| ensures lineIds[i] in st.lines {
      assert lineIds[i] in SoldBy(st, user);
    }
  }

  /** The order of each line, line by line (`resOrders.rows.map(...)`). */
  function OrdersOfLines(st: Store, lineIds: seq<nat>): (r: seq<nat>)
    requires forall i :: 0 <= i < |lineIds| ==> lineIds[i] in st.lines
    ensures |r| == |lineIds| && forall i :: 0 <= i < |lineIds| ==> r[i] == st.lines[lineIds[i]].orderId
  {
    seq(|lineIds|, i requires 0 <= i < |lineIds| => st.lines[lineIds[i]].orderId)
  }

  /** The orders of the user's lines are the seller's orders. */
  lemma OrdersOfSoldLines(st: Store, user: nat, lineIds: seq<nat>, orderOf: seq<nat>)
    requires forall l :: l in lineIds <==> l in SoldBy(st, user)
    requires forall i :: 0 <= i < |lineIds| ==> lineIds[i] in st.lines
    requires |orderOf| == |lineIds| && forall i :: 0 <= i < |lineIds| ==> orderOf[i] == st.lines[lineIds[i]].orderId
    ensures forall o :: o in orderOf <==> o in SellerOrderIds(st, user)
    ensures orderOf == [] <==> SoldBy(st, user) == {}
  {
    forall o | o in SellerOrderIds(st, user) ensures o in orderOf {
      var l :| l in SoldBy(st, user) && st.lines[l].orderId == o;
      assert orderOf[Tables.IndexOf(lineIds, l)] == o;
    }
    forall o | o in orderOf ensures o in SellerOrderIds(st, user) {
      var i :| 0 <= i < |orderOf| && orderOf[i] == o;
      assert lineIds[i] in SoldBy(st, user);
    }
    if SoldBy(st, user) != {} {
      var l :| l in SoldBy(st, user);
      assert l in lineIds;
      assert orderOf != [];
    }
    if lineIds != [] {
      assert lineIds[0] in SoldBy(st, user);
    }
  }

  /** An entry of the seller's view: a stored order with the user's own
      rows of what `getAllProductsFromOrder` returns for it. */
  predicate SellerEntry(st: Store, user: nat, e: SellerOrder) {
    && e.id in st.orders && e.order == st.orders[e.id]
    && ProductsFromOrder(st, e.id).Ok?
    && e.products == OwnRows(ProductsFromOrder(st, e.id).value, user)
  }

  /** The seller's view lists every order with a line of the user's
      products, once. */
  ghost predicate SellerView(st: Store, user: nat, view: seq<SellerOrder>) {
    && (forall o :: o in SellerOrderIds(st, user) <==> exists i :: 0 <= i < |view| && view[i].id == o)
    && (forall i, j :: 0 <= i < j < |view| ==> view[i].id != view[j].id)
    && (forall i :: 0 <= i < |view| ==> SellerEntry(st, user, view[i]))
  }

  /** Fetching the order `o` of the user's lines fails with `e`: either
      `getAllProductsFromOrder` fails, or it succeeds on a missing order row
      and setting the products on it raises a TypeError. */
  predicate SellerFailure(st: Store, user: nat, o: nat, e: Error) {
    && o in SellerOrderIds(st, user)
    && (ProductsFromOrder(st, o) == Err(e) || (ProductsFromOrder(st, o).Ok? && o !in st.orders && e == ServerError))
  }

  /** `getOrdersForSeller`: the distinct orders holding a line of the
      user's products, each with only the user's rows. The row order of
      the unordered first query is taken to be by line id. */
  function OrdersForSeller(st: Store, user: nat): (r: Result<seq<SellerOrder>>)
    ensures r == Ok([]) <==> SoldBy(st, user) == {}
    ensures r.Err? ==> exists o :: SellerFailure(st, user, o, r.error)
    ensures r.Ok? ==> SellerView(st, user, r.value)
  {
    var ids := SellerOrderList(st, user);
    if ids == [] then Ok([])
    else
      var fetched := Fetch(st, ids);
      var r := SellerOrders(st.orders, user, ids, fetched);
      if r.Ok? then
        SellerViewOf(st, user, ids, fetched, r.value);
        r
      else
        var i :| 0 <= i < |ids| && (fetched[i] == Err(r.error) || (fetched[i].Ok? && ids[i] !in st.orders && r.error == ServerError));
        assert ids[i] in SellerOrderIds(st, user);
        assert SellerFailure(st, user, ids[i], r.error);
        r
  }

  /** The loop's result over the distinct orders of the user's lines is the
      seller's view. */
  lemma SellerViewOf(st: Store, user: nat, ids: seq<nat>, fetched: seq<Result<seq<ProductRow>>>, view: seq<SellerOrder>)
    requires Tables.Distinct(ids)
    requires forall o :: o in ids <==> o in SellerOrderIds(st, user)
    requires |fetched| == |ids| && forall i :: 0 <= i < |ids| ==> fetched[i] == ProductsFromOrder(st, ids[i]) && fetched[i].Ok?
    requires |view| == |ids| && forall i :: 0 <= i < |ids| ==>
      ids[i] in st.orders && view[i] == SellerOrder(ids[i], st.orders[ids[i]], OwnRows(fetched[i].value, user))
    ensures SellerView(st, user, view)
  {
    forall o | o in SellerOrderIds(st, user) ensures exists i :: 0 <= i < |view| && view[i].id == o {
      var i := Tables.IndexOf(ids, o);
      assert view[i].id == o;
    }
    forall i | 0 <= i < |view| ensures SellerEntry(st, user, view[i]) {
      assert fetched[i] == ProductsFromOrder(st, ids[i]);
    }
  }

  /** An entry of the buyer's view carries exactly the rows that survive the
      joins of `getAllProductsFromOrder` for its order. */
  lemma BuyerSeesJoinedRows(st: Store, user: nat, e: BuyerOrder, x: ProductRow)
    requires BuyerEntry(st, user, e)
    ensures x in e.products <==> Joined(st, e.id, x)
    ensures e.products != []
    ensures Unique(e.products)
  {
    assert ProductsFromOrder(st, e.id).Ok?;
  }

  /** An entry of the seller's view carries exactly the joined rows of the
      user's own products; other sellers' lines of the same order are
      filtered out. */
  lemma SellerSeesOwnRows(st: Store, user: nat, e: SellerOrder, x: ProductRow)
    requires SellerEntry(st, user, e)
    ensures x in e.products <==> Joined(st, e.id, x) && x.product.owner == user
    ensures Unique(e.products)
  {
    assert ProductsFromOrder(st, e.id).Ok?;
  }

  /** A seller with two lines in one order sees that order exactly once:
      when `getOrdersForSeller` succeeds it lists the order, at one
      position only. */
  lemma SellerSeesEachOrderOnce(st: Store, user: nat, l1: nat, l2: nat)
    requires l1 in SoldBy(st, user) && l2 in SoldBy(st, user) && l1 != l2
    requires st.lines[l1].orderId == st.lines[l2].orderId
    ensures var r := OrdersForSeller(st, user);
      r.Ok? ==> exists i :: (0 <= i < |r.value| && r.value[i].id == st.lines[l1].orderId
        && forall j :: 0 <= j < |r.value| && j != i ==> r.value[j].id != st.lines[l1].orderId)
  {
    var r := OrdersForSeller(st, user);
    var o := st.lines[l1].orderId;
    assert o in SellerOrderIds(st, user);
    if r.Ok? {
      var i :| 0 <= i < |r.value| && r.value[i].id == o;
      forall j | 0 <= j < |r.value| && j != i ensures r.value[j].id != o {
        if j < i {
          assert r.value[j].id != r.value[i].id;
        } else {
          assert r.value[i].id != r.value[j].id;
        }
      }
    }
  }
}

=== FILE: orders.dfy ===
/** Checkout commit: `Order.create` of models/orders.js.

    The commit is a sequence of separate writes with no surrounding
    transaction. An error raised part-way (a missing product or cart row)
    propagates with the earlier writes left in place, so the result is the
    store as it stands together with what the call reported.
 */
module Orders {
  import opened Results
  import opened Schema
  import Products
  import Cart

  /** One line of the cart snapshot sent to checkout: the cart row it came
      from, its owner, the product, the requested quantity and the unit
      price, all as the client sent them. */
  datatype CheckoutItem = CheckoutItem(cartId: nat, owner: nat, productId: nat, quantity: int, price: int)

  /** Sum of price times quantity over the snapshot. */
  function Subtotal(items: seq<CheckoutItem>): int {
    if items == [] then 0
    else Subtotal(items[..|items| - 1]) + items[|items| - 1].price * items[|items| - 1].quantity
  }

  /** The buyer recorded on the order: the owner of the last item (the loop
      overwrites it on every item); None for an empty snapshot. */
  function Buyer(items: seq<CheckoutItem>): Option<nat> {
    if items == [] then None else Some(items[|items| - 1].owner)
  }

  /** The first loop of `create`: accumulates the subtotal and the buyer. */
  method ComputeTotals(items: seq<CheckoutItem>) returns (subtotal: int, buyer: Option<nat>)
    ensures subtotal == Subtotal(items)
    ensures buyer == Buyer(items)
  {
    subtotal := 0;
    buyer := None;
    var i := 0;
    while i < |items|
      invariant 0 <= i <= |items|
      invariant subtotal == Subtotal(items[..i])
      invariant buyer == Buyer(items[..i])
    {
      assert items[..i + 1][..i] == items[..i];
      buyer := Some(items[i].owner);
      subtotal := subtotal + items[i].price * items[i].quantity;
      i := i + 1;
    }
    assert items[..i] == items;
  }

  /** The `product_orders` row written for an item. */
  function LineFor(orderId: nat, it: CheckoutItem): OrderLine {
    OrderLine(orderId, it.productId, it.quantity, it.price * it.quantity)
  }

  /** What the order insert gave back: its row, or no row at all (reading
      `rows[0].id` then raises a TypeError). */
  datatype OrderInsert = RowBack | NoRow

  /** The writes whose result `create` tests: the order insert, and, by
      item index, the line inserts that come back with no row and the
      quantity updates that come back falsy. The database never produces
      an empty line insert or a falsy update, so these drive branches the
      code has but a run does not reach. */
  datatype Faults = Faults(order: OrderInsert, lineInsert: set<nat>, debit: set<nat>)

  const NoFaults := Faults(RowBack, {}, {})

  /** What `create` reported: the success message naming the order, the
      "Unable to perform the checkout" message, or a thrown error. */
  datatype Outcome = Created(orderId: nat) | Unable | Raised(error: Error)

  datatype Commit = Commit(store: Store, outcome: Outcome)

  /** The compensation after a failed quantity update: the order row and
      every line that refers to it are deleted. */
  function DeleteOrder(st: Store, orderId: nat): (r: Store)
    ensures orderId !in r.orders
    ensures forall l :: l in r.lines ==> r.lines[l].orderId != orderId
    ensures r.orders == st.orders - {orderId}
    ensures forall l :: l in st.lines && st.lines[l].orderId != orderId ==> l in r.lines && r.lines[l] == st.lines[l]
    ensures r.lines.Keys <= st.lines.Keys
    ensures r.(orders := st.orders, lines := st.lines) == st
  {
    st.(orders := st.orders - {orderId},
        lines := map l | l in st.lines && st.lines[l].orderId != orderId :: st.lines[l])
  }

  /** `create`: inserts the order, then handles the items in order. An
      insert with no row raises before anything is tested. The new order's
      id is `st.next`; an id of 0 is falsy, so the `!orderId` test reports
      "unable" and leaves the order row it wrote. */
  function Create(st: Store, items: seq<CheckoutItem>, transactionId: string, date: int, faults: Faults): (r: Commit)
    ensures faults.order == NoRow ==> r == Commit(st, Raised(ServerError))
    ensures faults.order == RowBack && st.next == 0 ==>
      && r.outcome == Unable
      && r.store.orders == st.orders[st.next := Order(Buyer(items), transactionId, Subtotal(items), Subtotal(items), date)]
      && r.store.(orders := st.orders, next := st.next) == st
    ensures r.outcome.Created? ==> r.outcome == Created(st.next) && st.next != 0 && faults.order == RowBack
    ensures r.outcome.Raised? && faults.order != NoRow ==> r.outcome.error == NotFound
  {
    match faults.order
    case NoRow => Commit(st, Raised(ServerError))
    case RowBack =>
      if st.next == 0 then Commit(Opened(st, items, transactionId, date), Unable)
      else Lines(Opened(st, items, transactionId, date), st.next, items, 0, faults)
  }

  /** The store once the order row is in: the order takes the next id, with
      the snapshot's buyer and its subtotal as both subtotal and total. */
  function Opened(st: Store, items: seq<CheckoutItem>, transactionId: string, date: int): (r: Store)
    ensures r.orders == st.orders[st.next := Order(Buyer(items), transactionId, Subtotal(items), Subtotal(items), date)]
    ensures r.next == st.next + 1
    ensures r.(orders := st.orders, next := st.next) == st
  {
    var order := Order(Buyer(items), transactionId, Subtotal(items), Subtotal(items), date);
    st.(orders := st.orders[st.next := order], next := st.next + 1)
  }

  /** How handling one item ended: the call returns, or the loop goes on. */
  datatype Progress = Stop(commit: Commit) | Continue(store: Store)

  /** The body of the second loop of `create` for item `k`: insert the line,
      debit the product by re-reading its quantity, remove the cart row. A
      failed line insert deletes the order; a failed quantity update deletes
      the order and its lines; a thrown error is not compensated. */
  function Step(st: Store, orderId: nat, it: CheckoutItem, k: nat, faults: Faults): Progress {
    if k in faults.lineInsert then Stop(Commit(st.(orders := st.orders - {orderId}), Unable))
    else
      var st1 := st.(lines := st.lines[st.next := LineFor(orderId, it)], next := st.next + 1);
      match Products.Get(st1, it.productId)
      case Err(e) => Stop(Commit(st1, Raised(e)))
      case Ok(p) =>
        if k in faults.debit then Stop(Commit(DeleteOrder(st1, orderId), Unable))
        else
          match Products.Update(st1, it.productId, Products.QuantityPatch(p.quantity - it.quantity))
          case Err(e) => Stop(Commit(st1, Raised(e)))
          case Ok(st2) =>
            match Cart.Remove(st2, it.cartId)
            case Err(e) => Stop(Commit(st2, Raised(e)))
            case Ok(st3) => Continue(st3)
  }

  /** The second loop of `create`, from item `k` on. */
  function Lines(st: Store, orderId: nat, items: seq<CheckoutItem>, k: nat, faults: Faults): (r: Commit)
    requires k <= |items|
    ensures r.outcome.Created? ==> r.outcome == Created(orderId)
    ensures r.outcome.Raised? ==> r.outcome.error == NotFound
    decreases |items| - k
  {
    if k == |items| then Commit(st, Created(orderId))
    else
      match Step(st, orderId, items[k], k, faults)
      case Stop(c) => c
      case Continue(next) => Lines(next, orderId, items, k + 1, faults)
  }

  /** Total quantity the items request of one product. */
  function Requested(items: seq<CheckoutItem>, productId: nat): int {
    if items == [] then 0
    else (if items[0].productId == productId then items[0].quantity else 0) + Requested(items[1..], productId)
  }

  /** The cart rows named by items `k` up to `m`. */
  function CartIds(items: seq<CheckoutItem>, k: nat, m: nat): set<nat>
    requires k <= m <= |items|
  {
    set j | k <= j < m :: items[j].cartId
  }

  /** The lines items `k` up to `m` get, keyed by the ids the sequence hands
      out from `first` on. */
  function NewLines(first: nat, orderId: nat, items: seq<CheckoutItem>, k: nat, m: nat): (r: map<nat, OrderLine>)
    requires k <= m <= |items|
    ensures forall l :: l in r ==> first <= l < first + (m - k)
    decreases m - k
  {
    if k == m then map[]
    else NewLines(first + 1, orderId, items, k + 1, m)[first := LineFor(orderId, items[k])]
  }

  /** The product row after the debit of `quantity`: the quantity patch that
      `create` sends to `Product.update`. */
  function Debit(st: Store, productId: nat, quantity: int): (r: Store)
    ensures r.(products := st.products) == st
    ensures r.products.Keys == st.products.Keys
    ensures forall id :: id in st.products && id != productId ==> r.products[id] == st.products[id]
    ensures productId in st.products ==>
      && SameListing(st.products[productId], r.products[productId])
      && r.products[productId].quantity == st.products[productId].quantity - quantity
      && Products.StatusTracks(r.products[productId])
  {
    if productId in st.products
    then Products.Update(st, productId, Products.QuantityPatch(st.products[productId].quantity - quantity)).value
    else st
  }

  /** The store after one item went through without error or fault. */
  function Next(st: Store, orderId: nat, it: CheckoutItem): (r: Store)
    ensures r.lines == st.lines[st.next := LineFor(orderId, it)]
    ensures r.next == st.next + 1
    ensures r.orders == st.orders && r.addresses == st.addresses
    ensures r.cart == st.cart - {it.cartId}
    ensures r.products == Debit(st, it.productId, it.quantity).products
  {
    var st1 := st.(lines := st.lines[st.next := LineFor(orderId, it)], next := st.next + 1);
    var st2 := Debit(st1, it.productId, it.quantity);
    st2.(cart := st2.cart - {it.cartId})
  }

  /** A step that goes on leaves exactly the `Next` store. */
  lemma StepContinues(st: Store, orderId: nat, it: CheckoutItem, k: nat, faults: Faults)
    requires Step(st, orderId, it, k, faults).Continue?
    ensures Step(st, orderId, it, k, faults).store == Next(st, orderId, it)
    ensures k !in faults.lineInsert && k !in faults.debit
    ensures it.productId in st.products && it.cartId in st.cart
  {
  }

  /** The store after items `k` up to `m` all went through. */
  function Run(st: Store, orderId: nat, items: seq<CheckoutItem>, k: nat, m: nat): Store
    requires k <= m <= |items|
    decreases m - k
  {
    if k == m then st else Run(Next(st, orderId, items[k]), orderId, items, k + 1, m)
  }

  /** The listing fields of a product (everything but quantity and status). */
  predicate SameListing(p: Product, q: Product) {
    q == p.(quantity := q.quantity, status := q.status)
  }

  /** Items `k` up to `m` leave orders and addresses untouched and draw
      one id each. */
  lemma {:induction false} RunKeeps(st: Store, orderId: nat, items: seq<CheckoutItem>, k: nat, m: nat)
    requires k <= m <= |items|
    ensures var r := Run(st, orderId, items, k, m);
      && r.orders == st.orders
      && r.addresses == st.addresses
      && r.next == st.next + (m - k)
    decreases m - k
  {
    if k < m {
      RunKeeps(Next(st, orderId, items[k]), orderId, items, k + 1, m);
    }
  }

  /** Overriding one key first or last gives the same map when the other
      map does not hold that key. */
  lemma OverrideCommutes(a: map<nat, OrderLine>, b: map<nat, OrderLine>, key: nat, v: OrderLine)
    requires key !in b
    ensures a[key := v] + b == a + b[key := v]
  {
  }

  /** Items `k` up to `m` each got their line. */
  lemma {:induction false} RunLines(st: Store, orderId: nat, items: seq<CheckoutItem>, k: nat, m: nat)
    requires k <= m <= |items|
    ensures Run(st, orderId, items, k, m).lines == st.lines + NewLines(st.next, orderId, items, k, m)
    decreases m - k
  {
    if k == m {
      var none: map<nat, OrderLine> := map[];
      assert NewLines(st.next, orderId, items, k, m) == none;
      assert st.lines + none == st.lines;
    } else {
      var it := items[k];
      RunLines(Next(st, orderId, it), orderId, items, k + 1, m);
      var b := NewLines(st.next + 1, orderId, items, k + 1, m);
      OverrideCommutes(st.lines, b, st.next, LineFor(orderId, it));
    }
  }

  /** Items `k` up to `m` each had their cart row removed. */
  lemma {:induction false} RunCart(st: Store, orderId: nat, items: seq<CheckoutItem>, k: nat, m: nat)
    requires k <= m <= |items|
    ensures Run(st, orderId, items, k, m).cart == st.cart - CartIds(items, k, m)
    decreases m - k
  {
    if k == m {
      assert st.cart - CartIds(items, k, m) == st.cart;
    } else {
      var it := items[k];
      RunCart(Next(st, orderId, it), orderId, items, k + 1, m);
      assert CartIds(items, k, m) == {it.cartId} + CartIds(items, k + 1, m);
      assert st.cart - {it.cartId} - CartIds(items, k + 1, m) == st.cart - CartIds(items, k, m);
    }
  }

  /** Items `k` up to `m` debited each product by the quantity requested of
      it, and changed nothing else about it. */
  lemma {:induction false} RunProducts(st: Store, orderId: nat, items: seq<CheckoutItem>, k: nat, m: nat)
    requires k <= m <= |items|
    ensures var r := Run(st, orderId, items, k, m);
      && r.products.Keys == st.products.Keys
      && (forall id :: id in st.products ==>
            && SameListing(st.products[id], r.products[id])
            && r.products[id].quantity == st.products[id].quantity - Requested(items[k..m], id))
    decreases m - k
  {
    if k < m {
      var it := items[k];
      var s := Next(st, orderId, it);
      RunProducts(s, orderId, items, k + 1, m);
      assert items[k..m] == [it] + items[k + 1..m];
      assert items[k..m][1..] == items[k + 1..m];
    }
  }

  /** Every run of the loop goes through some items `k` up to `m` and then
      either finishes (`m` is the end) or stops at item `m`. */
  lemma {:induction false} Unfold(st: Store, orderId: nat, items: seq<CheckoutItem>, k: nat, faults: Faults) returns (m: nat)
    requires k <= |items|
    ensures k <= m <= |items|
    ensures forall j :: k <= j < m ==> Step(Run(st, orderId, items, k, j), orderId, items[j], j, faults).Continue?
    ensures m < |items| ==> Step(Run(st, orderId, items, k, m), orderId, items[m], m, faults).Stop?
    ensures Lines(st, orderId, items, k, faults) ==
      if m == |items| then Commit(Run(st, orderId, items, k, m), Created(orderId))
      else Step(Run(st, orderId, items, k, m), orderId, items[m], m, faults).commit
    decreases |items| - k
  {
    if k == |items| {
      m := k;
    } else {
      match Step(st, orderId, items[k], k, faults)
      case Stop(c) =>
        m := k;
      case Continue(s) =>
        StepContinues(st, orderId, items[k], k, faults);
        m := Unfold(s, orderId, items, k + 1, faults);
        forall j | k <= j < m
          ensures Step(Run(st, orderId, items, k, j), orderId, items[j], j, faults).Continue?
        {
          if j > k {
            assert Run(st, orderId, items, k, j) == Run(s, orderId, items, k + 1, j);
          }
        }
        assert Run(st, orderId, items, k, m) == Run(s, orderId, items, k + 1, m);
    }
  }

  /** The lines of `NewLines` are those of the items, in order: id
      `first + j` holds the line of item `k + j`. */
  lemma {:induction false} NewLinesContent(first: nat, orderId: nat, items: seq<CheckoutItem>, k: nat, m: nat)
    requires k <= m <= |items|
    ensures forall l :: l in NewLines(first, orderId, items, k, m) <==> first <= l < first + (m - k)
    ensures forall l :: l in NewLines(first, orderId, items, k, m) ==>
      NewLines(first, orderId, items, k, m)[l] == LineFor(orderId, items[k + (l - first)])
    decreases m - k
  {
    if k < m {
      NewLinesContent(first + 1, orderId, items, k + 1, m);
    }
  }

  /** How a step that stops leaves the store. */
  lemma StepStops(st: Store, orderId: nat, it: CheckoutItem, k: nat, faults: Faults)
    requires Step(st, orderId, it, k, faults).Stop?
    ensures var c := Step(st, orderId, it, k, faults).commit;
      && !c.outcome.Created?
      && (c.outcome == Unable && k in faults.lineInsert ==> c.store == st.(orders := st.orders - {orderId}))
      && (c.outcome == Unable && k !in faults.lineInsert ==>
            && k in faults.debit
            && c.store == DeleteOrder(st.(lines := st.lines[st.next := LineFor(orderId, it)], next := st.next + 1), orderId))
      && (c.outcome.Raised? ==>
            && c.outcome.error == NotFound
            && k !in faults.lineInsert
            && (it.productId !in st.products ==>
                  c.store == st.(lines := st.lines[st.next := LineFor(orderId, it)], next := st.next + 1))
            && (it.productId in st.products ==>
                  && k !in faults.debit && it.cartId !in st.cart
                  && c.store == Next(st, orderId, it).(cart := st.cart)))
  {
  }

  /** A loop that reports success went through every item, and each item's
      product and cart row were there when it came to them. */
  lemma LinesSucceed(st: Store, orderId: nat, items: seq<CheckoutItem>, faults: Faults)
    requires Lines(st, orderId, items, 0, faults).outcome.Created?
    ensures Lines(st, orderId, items, 0, faults) == Commit(Run(st, orderId, items, 0, |items|), Created(orderId))
    ensures forall j :: 0 <= j < |items| ==> items[j].productId in st.products && items[j].cartId in st.cart
  {
    var m := Unfold(st, orderId, items, 0, faults);
    if m < |items| {
      StepStops(Run(st, orderId, items, 0, m), orderId, items[m], m, faults);
    }
    forall j | 0 <= j < |items| ensures items[j].productId in st.products && items[j].cartId in st.cart {
      StepContinues(Run(st, orderId, items, 0, j), orderId, items[j], j, faults);
      RunCart(st, orderId, items, 0, j);
      RunProducts(st, orderId, items, 0, j);
    }
  }

  /** A commit that reports success inserted the order with subtotal and
      total equal to the sum of price times quantity, one line per item,
      debited each product by exactly what the snapshot requested of it,
      and removed every cart row it names; nothing else changed. */
  lemma CreateSucceeds(st: Store, items: seq<CheckoutItem>, transactionId: string, date: int, faults: Faults)
    requires Create(st, items, transactionId, date, faults).outcome.Created?
    ensures Create(st, items, transactionId, date, faults).outcome == Created(st.next)
    ensures var r := Create(st, items, transactionId, date, faults).store;
      && r.orders == st.orders[st.next := Order(Buyer(items), transactionId, Subtotal(items), Subtotal(items), date)]
      && r.lines == st.lines + NewLines(st.next + 1, st.next, items, 0, |items|)
      && r.cart == st.cart - CartIds(items, 0, |items|)
      && r.addresses == st.addresses
      && r.products.Keys == st.products.Keys
      && (forall id :: id in st.products ==>
            && SameListing(st.products[id], r.products[id])
            && r.products[id].quantity == st.products[id].quantity - Requested(items, id))
    ensures forall j :: 0 <= j < |items| ==> items[j].productId in st.products && items[j].cartId in st.cart
  {
    var orderId := st.next;
    var st1 := Opened(st, items, transactionId, date);
    var c := Create(st, items, transactionId, date, faults);
    assert faults.order == RowBack && st.next != 0;
    assert c == Lines(st1, orderId, items, 0, faults);
    LinesSucceed(st1, orderId, items, faults);
    assert c == Commit(Run(st1, orderId, items, 0, |items|), Created(orderId));
    RunFromOpened(st, st1, items);
  }

  /** The store after every item went through, once the order row is in. */
  lemma RunFromOpened(st: Store, st1: Store, items: seq<CheckoutItem>)
    requires st1.(orders := st.orders, next := st.next) == st && st1.next == st.next + 1
    ensures var r := Run(st1, st.next, items, 0, |items|);
      && r.orders == st1.orders
      && r.lines == st.lines + NewLines(st.next + 1, st.next, items, 0, |items|)
      && r.cart == st.cart - CartIds(items, 0, |items|)
      && r.addresses == st.addresses
      && r.products.Keys == st.products.Keys
      && (forall id :: id in st.products ==>
            && SameListing(st.products[id], r.products[id])
            && r.products[id].quantity == st.products[id].quantity - Requested(items, id))
  {
    var orderId := st.next;
    RunKeeps(st1, orderId, items, 0, |items|);
    RunLines(st1, orderId, items, 0, |items|);
    RunCart(st1, orderId, items, 0, |items|);
    RunProducts(st1, orderId, items, 0, |items|);
    assert items[0..|items|] == items;
  }

  /** Adding the new lines to a table puts item `j`'s line at `first + j`,
      whatever the table held there. */
  lemma AddedLines(base: map<nat, OrderLine>, first: nat, orderId: nat, items: seq<CheckoutItem>)
    ensures var r := base + NewLines(first, orderId, items, 0, |items|);
      forall l :: first <= l < first + |items| ==>
        && l in r
        && r[l] == LineFor(orderId, items[l - first])
        && r[l].total == items[l - first].price * items[l - first].quantity
  {
    NewLinesContent(first, orderId, items, 0, |items|);
    var added := NewLines(first, orderId, items, 0, |items|);
    forall l | first <= l < first + |items|
      ensures l in added && added[l] == LineFor(orderId, items[l - first])
    {
      assert l in added && added[l] == LineFor(orderId, items[0 + (l - first)]);
    }
  }

  /** Every line `NewLines` writes belongs to the order it was given. */
  lemma NewLinesOrder(first: nat, orderId: nat, items: seq<CheckoutItem>, k: nat, m: nat)
    requires k <= m <= |items|
    ensures forall l :: l in NewLines(first, orderId, items, k, m) ==> NewLines(first, orderId, items, k, m)[l].orderId == orderId
  {
    NewLinesContent(first, orderId, items, k, m);
  }

  /** Deleting an order whose lines all came on top of `base` leaves `base`. */
  lemma DeleteLeaves(st: Store, base: map<nat, OrderLine>, orderId: nat)
    requires forall l :: l in base ==> l in st.lines && st.lines[l] == base[l] && base[l].orderId != orderId
    requires forall l :: l in st.lines && l !in base ==> st.lines[l].orderId == orderId
    ensures DeleteOrder(st, orderId).lines == base
  {
  }

  /** The table once the lines of items up to `m` and the line of the
      failing item were written on top of a fresh table. */
  lemma StackedLines(st: Store, orderId: nat, items: seq<CheckoutItem>, m: nat, key: nat, line: OrderLine)
    requires Fresh(st) && orderId == st.next && m < |items|
    requires key == st.next + 1 + m && line.orderId == orderId
    ensures var stacked := (st.lines + NewLines(st.next + 1, orderId, items, 0, m))[key := line];
      && (forall l :: l in st.lines ==> l in stacked && stacked[l] == st.lines[l] && st.lines[l].orderId != orderId)
      && (forall l :: l in stacked && l !in st.lines ==> stacked[l].orderId == orderId)
  {
    NewLinesOrder(st.next + 1, orderId, items, 0, m);
  }

  /** A commit that reports "unable" undid the order row, and the lines too
      when the quantity update was the write that failed. When a line insert
      failed, the lines already written stay behind, and in both cases the
      debits and cart removals of the items before the failing one, item
      `m`, are not undone. */
  lemma CreateUnable(st: Store, items: seq<CheckoutItem>, transactionId: string, date: int, faults: Faults) returns (m: nat)
    requires Fresh(st)
    requires Create(st, items, transactionId, date, faults).outcome == Unable
    ensures m <= |items|
    ensures faults.order == RowBack
    ensures st.next == 0 ==> m == 0 && Create(st, items, transactionId, date, faults).store == Opened(st, items, transactionId, date)
    ensures st.next != 0 ==> m < |items| && (m in faults.lineInsert || m in faults.debit)
    ensures var r := Create(st, items, transactionId, date, faults).store;
      && r.orders == (if st.next == 0 then Opened(st, items, transactionId, date).orders else st.orders)
      && r.addresses == st.addresses
      && r.cart == st.cart - CartIds(items, 0, m)
      && r.products.Keys == st.products.Keys
      && (forall id :: id in st.products ==>
            && SameListing(st.products[id], r.products[id])
            && r.products[id].quantity == st.products[id].quantity - Requested(items[..m], id))
    ensures var r := Create(st, items, transactionId, date, faults).store;
      && (st.next != 0 && m in faults.lineInsert ==> r.lines == st.lines + NewLines(st.next + 1, st.next, items, 0, m))
      && (st.next != 0 && m !in faults.lineInsert ==> r.lines == st.lines)
  {
    if st.next == 0 {
      m := 0;
      assert CartIds(items, 0, 0) == {};
      assert items[..0] == [];
    } else {
      m := LinesUnable(st, Opened(st, items, transactionId, date), items, faults);
    }
  }

  /** `CreateUnable` once the order row is in. */
  lemma LinesUnable(st: Store, st1: Store, items: seq<CheckoutItem>, faults: Faults) returns (m: nat)
    requires Fresh(st)
    requires st1.(orders := st.orders, next := st.next) == st && st1.next == st.next + 1
    requires st.next in st1.orders && st1.orders == st.orders[st.next := st1.orders[st.next]]
    requires Lines(st1, st.next, items, 0, faults).outcome == Unable
    ensures m < |items| && (m in faults.lineInsert || m in faults.debit)
    ensures var r := Lines(st1, st.next, items, 0, faults).store;
      && r.orders == st.orders
      && r.addresses == st.addresses
      && r.cart == st.cart - CartIds(items, 0, m)
      && r.products.Keys == st.products.Keys
      && (forall id :: id in st.products ==>
            && SameListing(st.products[id], r.products[id])
            && r.products[id].quantity == st.products[id].quantity - Requested(items[..m], id))
      && (m in faults.lineInsert ==> r.lines == st.lines + NewLines(st.next + 1, st.next, items, 0, m))
      && (m !in faults.lineInsert ==> r.lines == st.lines)
  {
    var orderId := st.next;
    m := Unfold(st1, orderId, items, 0, faults);
    var s := Run(st1, orderId, items, 0, m);
    StepStops(s, orderId, items[m], m, faults);
    RunKeeps(st1, orderId, items, 0, m);
    RunLines(st1, orderId, items, 0, m);
    RunCart(st1, orderId, items, 0, m);
    RunProducts(st1, orderId, items, 0, m);
    assert items[0..m] == items[..m];
    assert orderId !in st.orders;
    assert st1.orders - {orderId} == st.orders;
    if m !in faults.lineInsert {
      var line := LineFor(orderId, items[m]);
      StackedLines(st, orderId, items, m, s.next, line);
      DeleteLeaves(s.(lines := s.lines[s.next := line], next := s.next + 1), st.lines, orderId);
    }
  }

  /** The store after items `k` up to `m + 1` is the store after items `k`
      up to `m` with item `m` applied. */
  lemma {:induction false} RunSnoc(st: Store, orderId: nat, items: seq<CheckoutItem>, k: nat, m: nat)
    requires k <= m < |items|
    ensures Run(st, orderId, items, k, m + 1) == Next(Run(st, orderId, items, k, m), orderId, items[m])
    decreases m - k
  {
    if k < m {
      RunSnoc(Next(st, orderId, items[k]), orderId, items, k + 1, m);
    }
  }

  /** A commit that raised an error either got no row back from the order
      insert (a TypeError, nothing written) or met a missing product or cart
      row at some item `m` (NotFound). Nothing is undone then: the order row
      stays, and so do the lines of the items up to `m`, the cart removals
      of the items before `m`, and the debits of the items before `m` and of
      item `m` itself when its product exists (its cart row is then the one
      that is missing). */
  lemma CreateRaised(st: Store, items: seq<CheckoutItem>, transactionId: string, date: int, faults: Faults) returns (m: nat)
    requires Create(st, items, transactionId, date, faults).outcome.Raised?
    ensures faults.order == NoRow ==> Create(st, items, transactionId, date, faults) == Commit(st, Raised(ServerError))
    ensures faults.order == RowBack ==>
      && st.next != 0
      && m < |items| && m !in faults.lineInsert
      && Create(st, items, transactionId, date, faults).outcome.error == NotFound
    ensures faults.order == RowBack ==>
      var r := Create(st, items, transactionId, date, faults).store;
      var debited := if items[m].productId in st.products then m + 1 else m;
      && r.orders == st.orders[st.next := Order(Buyer(items), transactionId, Subtotal(items), Subtotal(items), date)]
      && r.addresses == st.addresses
      && r.lines == st.lines + NewLines(st.next + 1, st.next, items, 0, m + 1)
      && r.cart == st.cart - CartIds(items, 0, m)
      && (items[m].productId in st.products ==> m !in faults.debit && items[m].cartId !in r.cart)
      && r.products.Keys == st.products.Keys
      && (forall id :: id in st.products ==>
            && SameListing(st.products[id], r.products[id])
            && r.products[id].quantity == st.products[id].quantity - Requested(items[..debited], id))
  {
    if faults.order != RowBack {
      return 0;
    }
    var st1 := Opened(st, items, transactionId, date);
    assert st.next != 0;
    m := LinesRaised(st, st1, items, faults);
  }

  /** `CreateRaised` once the order row is in. */
  lemma LinesRaised(st: Store, st1: Store, items: seq<CheckoutItem>, faults: Faults) returns (m: nat)
    requires st1.(orders := st.orders, next := st.next) == st && st1.next == st.next + 1
    requires Lines(st1, st.next, items, 0, faults).outcome.Raised?
    ensures m < |items| && m !in faults.lineInsert
    ensures Lines(st1, st.next, items, 0, faults).outcome.error == NotFound
    ensures var r := Lines(st1, st.next, items, 0, faults).store;
      var debited := if items[m].productId in st.products then m + 1 else m;
      && r.orders == st1.orders
      && r.addresses == st.addresses
      && r.lines == st.lines + NewLines(st.next + 1, st.next, items, 0, m + 1)
      && r.cart == st.cart - CartIds(items, 0, m)
      && (items[m].productId in st.products ==> m !in faults.debit && items[m].cartId !in r.cart)
      && r.products.Keys == st.products.Keys
      && (forall id :: id in st.products ==>
            && SameListing(st.products[id], r.products[id])
            && r.products[id].quantity == st.products[id].quantity - Requested(items[..debited], id))
  {
    m := Unfold(st1, st.next, items, 0, faults);
    var s := Run(st1, st.next, items, 0, m);
    StepStops(s, st.next, items[m], m, faults);
    RunProducts(st1, st.next, items, 0, m);
    StopRaised(st, st1, items, m, Lines(st1, st.next, items, 0, faults).store);
  }

  /** The store a thrown error at item `m` leaves, after the items before
      `m` went through: item `m`'s line is written, and its product is
      debited when it exists. */
  lemma StopRaised(st: Store, st1: Store, items: seq<CheckoutItem>, m: nat, r: Store)
    requires st1.(orders := st.orders, next := st.next) == st && st1.next == st.next + 1
    requires m < |items|
    requires var s := Run(st1, st.next, items, 0, m);
      items[m].productId !in st.products ==>
        r == s.(lines := s.lines[s.next := LineFor(st.next, items[m])], next := s.next + 1)
    requires var s := Run(st1, st.next, items, 0, m);
      items[m].productId in st.products ==>
        r == Next(s, st.next, items[m]).(cart := s.cart)
    ensures var debited := if items[m].productId in st.products then m + 1 else m;
      && r.orders == st1.orders
      && r.addresses == st.addresses
      && r.lines == st.lines + NewLines(st.next + 1, st.next, items, 0, m + 1)
      && r.cart == st.cart - CartIds(items, 0, m)
      && r.products.Keys == st.products.Keys
      && (forall id :: id in st.products ==>
            && SameListing(st.products[id], r.products[id])
            && r.products[id].quantity == st.products[id].quantity - Requested(items[..debited], id))
  {
    var orderId := st.next;
    var s := Run(st1, orderId, items, 0, m);
    RunKeeps(st1, orderId, items, 0, m);
    RunCart(st1, orderId, items, 0, m);
    RunSnoc(st1, orderId, items, 0, m);
    var n := Next(s, orderId, items[m]);
    RunLines(st1, orderId, items, 0, m + 1);
    assert r.lines == n.lines;
    if items[m].productId in st.products {
      assert r.products == n.products;
      RunProducts(st1, orderId, items, 0, m + 1);
      assert items[0..m + 1] == items[..m + 1];
    } else {
      assert r.products == s.products;
      RunProducts(st1, orderId, items, 0, m);
      assert items[0..m] == items[..m];
    }
  }

  /** Every product whose status followed its quantity before the items
      still does after them: each debit that leaves a real stock level
      recomputes the status. */
  lemma {:induction false} RunTracks(st: Store, orderId: nat, items: seq<CheckoutItem>, k: nat, m: nat)
    requires k <= m <= |items|
    requires forall id :: id in st.products ==> Products.StatusTracks(st.products[id])
    ensures var r := Run(st, orderId, items, k, m);
      forall id :: id in r.products ==> Products.StatusTracks(r.products[id])
    decreases m - k
  {
    if k < m {
      var s := Next(st, orderId, items[k]);
      var d := Debit(st, items[k].productId, items[k].quantity);
      assert s.products == d.products;
      forall id | id in s.products ensures Products.StatusTracks(s.products[id]) {
        if id != items[k].productId {
          assert d.products[id] == st.products[id];
        }
      }
      RunTracks(s, orderId, items, k + 1, m);
      assert Run(st, orderId, items, k, m) == Run(s, orderId, items, k + 1, m);
    } else {
      assert Run(st, orderId, items, k, m) == st;
    }
  }

  /** A successful commit keeps statuses in step with quantities. */
  lemma CreateTracks(st: Store, items: seq<CheckoutItem>, transactionId: string, date: int, faults: Faults)
    requires forall id :: id in st.products ==> Products.StatusTracks(st.products[id])
    requires Create(st, items, transactionId, date, faults).outcome.Created?
    ensures var r := Create(st, items, transactionId, date, faults).store;
      forall id :: id in r.products ==> Products.StatusTracks(r.products[id])
  {
    var st1 := Opened(st, items, transactionId, date);
    LinesSucceed(st1, st.next, items, faults);
    RunTracks(st1, st.next, items, 0, |items|);
  }

  /** Without driver faults, a snapshot whose products and cart rows all
      exist, naming each cart row once, goes through to the end. */
  lemma {:induction false} LinesComplete(st: Store, orderId: nat, items: seq<CheckoutItem>, k: nat)
    requires k <= |items|
    requires forall i :: k <= i < |items| ==> items[i].productId in st.products && items[i].cartId in st.cart
    requires forall i, j :: k <= i < j < |items| ==> items[i].cartId != items[j].cartId
    ensures Lines(st, orderId, items, k, NoFaults).outcome == Created(orderId)
    decreases |items| - k
  {
    if k < |items| {
      var it := items[k];
      var st1 := st.(lines := st.lines[st.next := LineFor(orderId, it)], next := st.next + 1);
      var p := st1.products[it.productId];
      var st2 := Products.Update(st1, it.productId, Products.QuantityPatch(p.quantity - it.quantity)).value;
      assert st2.cart == st.cart;
      assert Step(st, orderId, it, k, NoFaults).Continue?;
      StepContinues(st, orderId, it, k, NoFaults);
      var s := Next(st, orderId, it);
      assert s.products.Keys == st.products.Keys;
      LinesComplete(s, orderId, items, k + 1);
    }
  }

  /** `LinesComplete` for the whole commit. */
  lemma CreateCompletes(st: Store, items: seq<CheckoutItem>, transactionId: string, date: int)
    requires forall i :: 0 <= i < |items| ==> items[i].productId in st.products && items[i].cartId in st.cart
    requires forall i, j :: 0 <= i < j < |items| ==> items[i].cartId != items[j].cartId
    ensures Create(st, items, transactionId, date, NoFaults).outcome == if st.next == 0 then Unable else Created(st.next)
  {
    LinesComplete(Opened(st, items, transactionId, date), st.next, items, 0);
  }
}

=== FILE: products.dfy ===
/** The inventory ledger: the `Product` model of models/products.js. */
module Products {
  import opened Results
  import opened Schema
  import Tables
  import Like

  /** The status a product with this quantity gets (`getCorrectProductStatus`):
      out of stock exactly at zero, available otherwise. */
  function StatusFor(quantity: int): (r: Status)
    ensures r == OutOfStock <==> quantity == 0
    ensures r == Available <==> quantity != 0
  {
    if quantity == 0 then OutOfStock else Available
  }

  /** A product whose stored status agrees with its stored quantity. */
  predicate Consistent(p: Product) {
    p.quantity >= 0 && p.status == StatusFor(p.quantity)
  }

  /** A product whose status follows its quantity whenever that quantity
      is a real stock level (not negative). */
  predicate StatusTracks(p: Product) {
    p.quantity >= 0 ==> p.status == StatusFor(p.quantity)
  }

  /** The inventory invariant: every product has a non-negative quantity and
      the status that quantity determines. */
  predicate StockConsistent(st: Store) {
    forall id :: id in st.products ==> Consistent(st.products[id])
  }

  /** `create`: inserts an active product whose status is derived from its
      initial quantity. */
  function Create(st: Store, owner: nat, name: string, price: int, quantity: int, description: string): (r: Inserted)
    ensures r.id in r.store.products
    ensures var p := r.store.products[r.id];
      && p.owner == owner && p.name == name && p.price == price
      && p.quantity == quantity && p.description == description && p.active
      && (p.status == OutOfStock <==> quantity == 0)
    ensures forall id :: id in st.products && id != r.id ==> id in r.store.products && r.store.products[id] == st.products[id]
    ensures r.store.products.Keys == st.products.Keys + {r.id}
    ensures r.store.(products := st.products, next := st.next) == st
    ensures Fresh(st) ==> r.id !in st.products && Fresh(r.store)
  {
    var p := Product(owner, name, price, quantity, description, StatusFor(quantity), true);
    Inserted(st.(products := st.products[st.next := p], next := st.next + 1), st.next)
  }

  /** `get`. */
  function Get(st: Store, id: nat): (r: Result<Product>)
    ensures r.Ok? <==> id in st.products
    ensures r.Ok? ==> r.value == st.products[id]
    ensures r.Err? ==> r.error == NotFound
  {
    if id in st.products then Ok(st.products[id]) else Err(NotFound)
  }

  /** The fields a partial update may carry; None means "not in the patch". */
  datatype Patch = Patch(
    name: Option<string>,
    price: Option<int>,
    quantity: Option<int>,
    description: Option<string>,
    status: Option<Status>)

  /** Only a new quantity. */
  function QuantityPatch(q: int): Patch {
    Patch(None, None, Some(q), None, None)
  }

  /** Overwrites the fields present in the patch. */
  function Merge(p: Product, patch: Patch): Product {
    p.(name := patch.name.GetOr(p.name),
       price := patch.price.GetOr(p.price),
       quantity := patch.quantity.GetOr(p.quantity),
       description := patch.description.GetOr(p.description),
       status := patch.status.GetOr(p.status))
  }

  /** `update`: a partial update. When the patch holds a quantity that is at
      least zero the status is recomputed from it, replacing any status the
      patch carried; otherwise the status is whatever the patch says, or
      unchanged. A missing product is NotFound and nothing is written. */
  function Update(st: Store, id: nat, patch: Patch): (r: Result<Store>)
    ensures r.Err? <==> id !in st.products
    ensures r.Err? ==> r.error == NotFound
    ensures r.Ok? ==> r.value.(products := st.products) == st
    ensures r.Ok? ==> r.value.products.Keys == st.products.Keys
    ensures r.Ok? ==> forall k :: k in st.products && k != id ==> r.value.products[k] == st.products[k]
    ensures r.Ok? ==>
      var before := st.products[id];
      var after := r.value.products[id];
      && after.owner == before.owner && after.active == before.active
      && after.name == (if patch.name.Some? then patch.name.value else before.name)
      && after.price == (if patch.price.Some? then patch.price.value else before.price)
      && after.quantity == (if patch.quantity.Some? then patch.quantity.value else before.quantity)
      && after.description == (if patch.description.Some? then patch.description.value else before.description)
      && (patch.quantity.Some? && patch.quantity.value >= 0 ==> (after.status == OutOfStock <==> patch.quantity.value == 0))
      && (!(patch.quantity.Some? && patch.quantity.value >= 0) ==>
            after.status == (if patch.status.Some? then patch.status.value else before.status))
  {
    if id !in st.products then Err(NotFound)
    else
      var patch' :=
        if patch.quantity.Some? && patch.quantity.value >= 0
        then patch.(status := Some(StatusFor(patch.quantity.value)))
        else patch;
      Ok(st.(products := st.products[id := Merge(st.products[id], patch')]))
  }

  /** `hasEverBeenSold`: the lines that refer to the product are counted,
      and the answer is whether there is at least one. */
  function HasEverBeenSold(st: Store, id: nat): (r: bool)
    ensures r <==> exists l :: l in st.lines && st.lines[l].productId == id
  {
    var sold := set l | l in st.lines && st.lines[l].productId == id;
    assert forall l :: l in st.lines && st.lines[l].productId == id ==> l in sold;
    |sold| > 0
  }

  /** `remove`: a hard delete. A product that has ever been sold cannot be
      deleted (checked first, so it wins over NotFound). */
  function Remove(st: Store, id: nat): (r: Result<Store>)
    ensures r == Err(BadRequest(CannotDelete)) <==> exists l :: l in st.lines && st.lines[l].productId == id
    ensures r == Err(NotFound) <==> (forall l :: l in st.lines ==> st.lines[l].productId != id) && id !in st.products
    ensures r.Ok? <==> id in st.products && !HasEverBeenSold(st, id)
    ensures r.Ok? ==> r.value == st.(products := st.products - {id})
  {
    if HasEverBeenSold(st, id) then Err(BadRequest(CannotDelete))
    else if id !in st.products then Err(NotFound)
    else Ok(st.(products := st.products - {id}))
  }

  /** `hasQuantity`: the stored quantity covers the request. Reading the
      quantity of a product that does not exist raises a TypeError. */
  function HasQuantity(st: Store, id: nat, quantity: int): (r: Result<bool>)
    ensures r.Err? <==> id !in st.products
    ensures r.Err? ==> r.error == ServerError
    ensures r.Ok? ==> (r.value <==> st.products[id].quantity >= quantity)
  {
    if id !in st.products then Err(ServerError)
    else Ok(!(st.products[id].quantity < quantity))
  }

  /** A result row of `findAll`. */
  datatype Row = Row(id: nat, product: Product)

  /** How the name filter is turned into an ILIKE pattern: as written the
      code builds `'%' + name`; a partial match, which the method's own
      documentation promises, needs `'%' + name + '%'`. */
  datatype NameMatch = AsWritten | Partial

  function Pattern(mode: NameMatch, name: string): string {
    match mode
    case AsWritten => "%" + name
    case Partial => "%" + name + "%"
  }

  /** The two optional filters of `findAll`, joined with AND. */
  predicate Selected(p: Product, mode: NameMatch, owner: Option<nat>, name: Option<string>) {
    && (owner.Some? ==> p.owner == owner.value)
    && (name.Some? ==> Like.Matches(p.name, Pattern(mode, name.value)))
  }

  /** The rows of the given products, ordered by id. */
  function RowsFor(st: Store, ids: set<nat>): (r: seq<Row>)
    requires ids <= st.products.Keys
    ensures forall i, j :: 0 <= i < j < |r| ==> r[i].id < r[j].id
    ensures forall i :: 0 <= i < |r| ==> r[i].id in ids && r[i].product == st.products[r[i].id]
    ensures forall id :: id in ids ==> exists i :: 0 <= i < |r| && r[i].id == id
  {
    var sorted := Tables.SortedKeys(ids);
    var r := seq(|sorted|, i requires 0 <= i < |sorted| => Row(sorted[i], st.products[sorted[i]]));
    assert forall i :: 0 <= i < |r| ==> r[i].id == sorted[i];
    forall id | id in ids ensures exists i :: 0 <= i < |r| && r[i].id == id {
      var k := Tables.IndexOf(sorted, id);
      assert r[k].id == id;
    }
    r
  }

  /** `findAll`: the selected products ordered by id. */
  function FindAll(st: Store, mode: NameMatch, owner: Option<nat>, name: Option<string>): (r: seq<Row>)
    ensures forall i, j :: 0 <= i < j < |r| ==> r[i].id < r[j].id
    ensures forall i :: 0 <= i < |r| ==>
      r[i].id in st.products && r[i].product == st.products[r[i].id]
      && Selected(r[i].product, mode, owner, name)
    ensures forall id :: id in st.products && Selected(st.products[id], mode, owner, name) ==>
      exists i :: 0 <= i < |r| && r[i].id == id
  {
    var selected := set id | id in st.products && Selected(st.products[id], mode, owner, name);
    var r := RowsFor(st, selected);
    assert forall id :: id in st.products && Selected(st.products[id], mode, owner, name) ==> id in selected;
    r
  }

  /** As written, a name filter free of wildcards keeps exactly the products
      whose name ends with it, ignoring case. */
  lemma NameFilterIsSuffix(st: Store, name: string)
    requires Like.Literal(name)
    ensures forall i :: 0 <= i < |FindAll(st, AsWritten, None, Some(name))| ==>
      Like.EndsWithCI(FindAll(st, AsWritten, None, Some(name))[i].product.name, name)
    ensures forall id :: id in st.products && Like.EndsWithCI(st.products[id].name, name) ==>
      exists i :: 0 <= i < |FindAll(st, AsWritten, None, Some(name))| && FindAll(st, AsWritten, None, Some(name))[i].id == id
  {
    var r := FindAll(st, AsWritten, None, Some(name));
    forall i | 0 <= i < |r| ensures Like.EndsWithCI(r[i].product.name, name) {
      Like.SuffixPattern(r[i].product.name, name);
    }
    forall id | id in st.products && Like.EndsWithCI(st.products[id].name, name)
      ensures exists i :: 0 <= i < |r| && r[i].id == id
    {
      Like.SuffixPattern(st.products[id].name, name);
      assert Selected(st.products[id], AsWritten, None, Some(name));
    }
  }

  /** With the corrected pattern, a name filter free of wildcards keeps
      exactly the products whose name contains it, ignoring case. */
  lemma NameFilterIsPartial(st: Store, name: string)
    requires Like.Literal(name)
    ensures forall i :: 0 <= i < |FindAll(st, Partial, None, Some(name))| ==>
      Like.ContainsCI(FindAll(st, Partial, None, Some(name))[i].product.name, name)
    ensures forall id :: id in st.products && Like.ContainsCI(st.products[id].name, name) ==>
      exists i :: 0 <= i < |FindAll(st, Partial, None, Some(name))| && FindAll(st, Partial, None, Some(name))[i].id == id
  {
    var r := FindAll(st, Partial, None, Some(name));
    forall i | 0 <= i < |r| ensures Like.ContainsCI(r[i].product.name, name) {
      Like.InfixPattern(r[i].product.name, name);
    }
    forall id | id in st.products && Like.ContainsCI(st.products[id].name, name)
      ensures exists i :: 0 <= i < |r| && r[i].id == id
    {
      Like.InfixPattern(st.products[id].name, name);
      assert Selected(st.products[id], Partial, None, Some(name));
    }
  }

  /** "Bike" is a part of "Bikes" but not a suffix of it. */
  lemma BikeInBikes()
    ensures !Like.Matches("Bikes", Pattern(AsWritten, "Bike"))
    ensures Like.Matches("Bikes", Pattern(Partial, "Bike"))
  {
    Like.SuffixPattern("Bikes", "Bike");
    Like.InfixPattern("Bikes", "Bike");
    assert Like.OccursAt("Bikes", "Bike", 0);
  }

  /** As written, searching for "Bike" does not find a product named
      "Bikes", although the name contains it; the corrected pattern does. */
  lemma SuffixMissesPartialName()
    ensures var bikes := Product(1, "Bikes", 100, 2, "", Available, true);
      var st := Store(map[7 := bikes], map[], map[], map[], map[], 8);
      && FindAll(st, AsWritten, None, Some("Bike")) == []
      && FindAll(st, Partial, None, Some("Bike")) != []
      && FindAll(st, Partial, None, Some("Bike"))[0] == Row(7, bikes)
  {
    var bikes := Product(1, "Bikes", 100, 2, "", Available, true);
    var st := Store(map[7 := bikes], map[], map[], map[], map[], 8);
    BikeInBikes();
    var r := FindAll(st, Partial, None, Some("Bike"));
    assert 7 in st.products && Selected(st.products[7], Partial, None, Some("Bike"));
    var i :| 0 <= i < |r| && r[i].id == 7;
    assert r[0].id in st.products.Keys;
  }
}

=== FILE: results.dfy ===
/** How the backend's operations answer: an optional value, or a value
    or one of the errors the HTTP layer turns into a status code.

    The Express error classes (`NotFoundError`, `BadRequestError`,
    `UnauthorizedError`) become constructors of `Error`. A `TypeError`
    raised by reading a field of a row that does not exist is not caught by
    the models and reaches the client as a server error; it is `ServerError`.
 */
module Results {

  datatype Option<+T> = None | Some(value: T) {
    function GetOr(default: T): T {
      match this
      case Some(v) => v
      case None => default
    }
  }

  /** Which `BadRequestError` message was raised. */
  datatype Reason =
    | QuantityNotAvailable   // cart: more requested than in stock
    | CannotDelete           // product: it has been sold, hard delete refused
    | NoRequestedQuantity    // checkout: stock below the requested quantity
    | NoLongerAvailable      // checkout: product is not active
    | OnlyImages             // upload: MIME type is not an image type

  datatype Error =
    | NotFound
    | BadRequest(reason: Reason)
    | Unauthorized
    | ServerError

  datatype Result<+T> = Ok(value: T) | Err(error: Error) {
    predicate IsFailure() {
      Err?
    }

    function PropagateFailure<U>(): Result<U>
      requires Err?
    {
      Err(error)
    }

    function Extract(): T
      requires Ok?
    {
      value
    }
  }
}

=== FILE: schema.dfy ===
/** The relational tables of the marketplace as one immutable value.

    Each table is a finite map from row id to record. `next` stands for the
    database's id sequence: every insert takes `next` as the new row's id and
    advances it, so ids are never reused, also after a row is deleted.
 */
module Schema {
  import opened Results

  /** `product_status` rows, looked up by name in the source. */
  datatype Status = Available | OutOfStock

  /** A `products` row. `active` is the soft-delete flag; the functions that
      read and clear it are not part of this model, so it is kept abstract. */
  datatype Product = Product(
    owner: nat,
    name: string,
    price: int,
    quantity: int,
    description: string,
    status: Status,
    active: bool)

  /** A `product_orders` row: one line of an order. */
  datatype OrderLine = OrderLine(orderId: nat, productId: nat, quantity: int, total: int)

  /** An `orders` row. `buyer` is None when the order was built from an empty
      cart (the buyer id is taken from the cart items). */
  datatype Order = Order(buyer: Option<nat>, transactionId: string, subtotal: int, total: int, date: int)

  /** A `cart` row. */
  datatype CartRow = CartRow(owner: nat, productId: nat, quantity: int, date: int)

  /** An `address` row. */
  datatype Address = Address(
    owner: nat,
    street: string,
    city: string,
    state: string,
    zipcode: string,
    isDefault: bool)

  datatype Store = Store(
    products: map<nat, Product>,
    lines: map<nat, OrderLine>,
    orders: map<nat, Order>,
    cart: map<nat, CartRow>,
    addresses: map<nat, Address>,
    next: nat)

  /** The store after an insert, with the id the database assigned. */
  datatype Inserted = Inserted(store: Store, id: nat)

  /** Every id in use, and every order id a line refers to, was drawn from
      the sequence before `next`. */
  predicate Fresh(st: Store) {
    && (forall k :: k in st.products ==> k < st.next)
    && (forall k :: k in st.lines ==> k < st.next && st.lines[k].orderId < st.next)
    && (forall k :: k in st.orders ==> k < st.next)
    && (forall k :: k in st.cart ==> k < st.next)
    && (forall k :: k in st.addresses ==> k < st.next)
  }
}

=== FILE: tables.dfy ===
/** Ordering and de-duplication helpers used to turn table maps into the
    row sequences that the SQL queries return. */
module Tables {

  /** `m` is the least element of `s`. */
  predicate IsMin(m: nat, s: set<nat>) {
    m in s && forall y :: y in s ==> m <= y
  }

  /** Every non-empty finite set of naturals has a least element. */
  lemma {:induction false} HasMinimum(s: set<nat>)
    requires s != {}
    ensures exists m :: IsMin(m, s)
    decreases |s|
  {
    var x :| x in s;
    var rest := s - {x};
    if rest == {} {
      forall y | y in s ensures x <= y {
        assert y !in rest;
      }
      assert IsMin(x, s);
    } else {
      assert |rest| < |s|;
      HasMinimum(rest);
      var m :| IsMin(m, rest);
      var least := if x < m then x else m;
      forall y | y in s
        ensures least <= y
      {
        if y != x {
          assert y in rest;
        }
      }
      assert IsMin(least, s);
    }
  }

  /** The least element of a non-empty set of ids. */
  function Min(s: set<nat>): (m: nat)
    requires s != {}
    ensures m in s
    ensures forall y :: y in s ==> m <= y
  {
    HasMinimum(s);
    var m :| IsMin(m, s);
    m
  }

  predicate Increasing(r: seq<nat>) {
    forall i, j :: 0 <= i < j < |r| ==> r[i] < r[j]
  }

  predicate Distinct(r: seq<nat>) {
    forall i, j :: 0 <= i < j < |r| ==> r[i] != r[j]
  }

  /** The ids of a table in ascending order (what `ORDER BY id` yields). */
  function SortedKeys(s: set<nat>): (r: seq<nat>)
    ensures Increasing(r)
    ensures forall x :: x in r <==> x in s
    decreases |s|
  {
    if s == {} then []
    else
      var m := Min(s);
      var rest := SortedKeys(s - {m});
      assert forall x :: x in rest ==> m < x;
      [m] + rest
  }

  /** Drops repeated ids, keeping each id at its first occurrence; this is
      what building a JavaScript `Set` from an array and iterating it does. */
  function Dedup(s: seq<nat>): (r: seq<nat>)
    ensures Distinct(r)
    ensures forall x :: x in r <==> x in s
    ensures |r| <= |s|
  {
    if s == [] then []
    else
      var d := Dedup(s[..|s| - 1]);
      var x := s[|s| - 1];
      assert forall y :: y in s <==> y in s[..|s| - 1] || y == x;
      if x in d then d else d + [x]
  }

  /** The position of an element of a sequence. */
  function IndexOf(s: seq<nat>, x: nat): (i: nat)
    requires x in s
    ensures i < |s| && s[i] == x
  {
    if s[0] == x then 0 else 1 + IndexOf(s[1..], x)
  }
}
